=== FILE: README.md ===
# auth-ms core: dependency container and decorator routing, modelled in Dafny

This project models the small sequential core of an Express/TypeScript backend
scaffold:

- **The dependency container** (`src/utils/injection.ts`). A registry holds an
  ordered list of registered values, most recent first, and a membership set.
  `register` skips values already present. It builds `@Injectable` classes
  through `create` and puts each new entry at the head. `remove` filters the
  list and rebuilds the set. `search` returns the first entry that passes an
  `instanceof` test. `create` builds a fresh instance and fills each field
  declared with `@Inject` through `search`.
  Objects are identities in a heap, and each object has a class. Classes are
  identities too, and a class can itself be registered. `instanceof` is a
  subclass relation supplied with the program's classes (`Injection.Classes`).
  The model keeps one subtlety of the source on purpose. The membership test
  looks at the argument, but for an injectable class the stored entry is the
  new instance. So registering the same injectable class twice registers two
  instances (`Injection.RegisterInjectableTwice`).
- **The routing adapter** (`src/utils/server/mapping.ts`,
  `src/utils/server/utils.ts`): the controller path table, the get-or-create
  router cache, route registration with its `GET` / `'/'` defaults, the verb
  shorthands, and the map from a handler's outcome to status and envelope.
- **The older single-file server** (`src/utils/server.ts`). Its controller
  table, router cache and route registration are line-for-line the same as in
  `mapping.ts`, so the model shares one definition (`Mapping`). The module
  `LegacyServer` holds only what differs. Its handler answers 400 for a thrown
  `BadRequestError`, and its `check` validates params, query, body in that
  order and turns a `ZodError` into a `BadRequestError`.
- **The typed request wrapper** (`src/utils/server/type-check.ts`). A schema is
  any function from a value to a parsed value or a thrown error.
- **The response envelope and error classes** (`src/utils/utils.ts`) and the
  **config store** (`src/config/Config.ts`).

The operations are pure functions over immutable datatypes. Container
operations require `Injection.Valid`, the registry invariant. A new container
establishes it and every operation preserves it. Routing operations likewise
require `Mapping.ValidRouting`. A thrown
exception is a `Result.Failure`. A handler's settled promise is an
`Envelope.Outcome`. A router is an opaque identity together with the list of
routes registered on it.

The two routing variants answer a failed validation differently.
`src/utils/server.ts` turns a schema error into a `BadRequestError` (lines
225-231) and answers a thrown `BadRequestError` with 400 (lines 177-179). In
`src/utils/server/mapping.ts` with `type-check.ts`, the schema error is
rethrown as it is and every throw becomes a 500 carrying the raw error
(mapping.ts lines 87-89). Both are modelled
(`LegacyServer.ValidationFailureIs400` and `Mapping.ValidationFailureIs500`).

Files: `results.dfy`, `ordered_maps.dfy` (a JavaScript `Map` with insertion
order), `values.dfy`, `envelope.dfy`, `configuration.dfy`, `injection.dfy`,
`route_options.dfy`, `type_check.dfy`, `mapping.dfy`, `legacy_server.dfy`.

## Model

| member | source | states |
|---|---|---|
| `Injection.NewContainer` | src/utils/injection.ts:14-19 | a new container is empty and satisfies the registry invariant |
| `Injection.RegisterOne` | src/utils/injection.ts:22-31 | a value already in the set leaves the state unchanged; otherwise exactly one entry is added at the head and the old list follows it; an injectable class is replaced by a fresh instance of that class, and anything else is stored as given; the invariant is preserved; a failure happens only when creating an injectable class fails |
| `Injection.RegisterOneCreates` | src/utils/injection.ts:25-29 | for an injectable class not yet in the set, the entry put at the head is exactly the object `create` returned, in the heap `create` returned |
| `Injection.RegisterOneStep` | src/utils/injection.ts:22-31 | one iteration grows the heap without changing old objects; a value already in the set changes nothing; otherwise exactly one entry standing for the argument (for an injectable class a fresh object of that class whose declared fields each hold an instance of their declared class and whose other fields are as the constructor set them; else the argument itself) is put at the head and into the set |
| `Injection.CreateBuilds` | src/utils/injection.ts:39-52 | the object `create` returns has the constructor's fields plus the declared ones, each declared field holding an instance of its declared class, every other field as the constructor set it |
| `Injection.RegisterAll` | src/utils/injection.ts:21-32 | registering a list keeps the invariant (set equals the list's elements, no duplicates), grows the heap without changing old objects, and keeps the old list as a suffix of the new one |
| `Registration.RegisterAllAdds` | src/utils/injection.ts:21-32 | the entries `register` puts in front of the old list are, most recent first, exactly what the admitted arguments store, in reverse argument order: an argument already in the set is skipped, a repeated non-injectable argument is skipped, every occurrence of an injectable class adds a fresh instance of it with its declared dependencies injected; the loop stops without error exactly when it reaches the end, and otherwise at an injectable class whose creation threw, which is not in the set |
| `Registration.RegisterAllKeepsArguments` | src/utils/injection.ts:21-30 | a `register` that does not throw leaves every argument that is not an injectable class in the set |
| `Injection.Without` | src/utils/injection.ts:35 | the filtered list holds exactly the elements not named for removal, and stays duplicate-free |
| `Injection.WithoutKeepsOrder` | src/utils/injection.ts:35 | filtering distributes over concatenation, so the kept entries keep their relative order |
| `Injection.Remove` | src/utils/injection.ts:34-37 | the list is the filtered list, the set is rebuilt to hold exactly the kept entries, and the invariant is preserved |
| `Injection.Apply` | src/utils/injection.ts:21-37 | one `register` or `remove` call keeps the registry invariant and grows the heap without changing old objects |
| `Injection.Run` | src/utils/injection.ts:21-37 | after any sequence of register and remove calls in which each `register` is passed values the program holds at that point (a `remove` may be passed anything), the set equals the list's elements and the list has no duplicates |
| `Injection.RunnableFromStart` | src/utils/injection.ts:21-37 | every sequence whose registered values were allocated before the first call is such a sequence |
| `Injection.RegisterThenRemoveRunnable` | src/utils/injection.ts:21-37 | `register(C)` followed by `remove` of any value, such as the instance just created, is such a sequence |
| `Injection.FirstMatch` | src/utils/injection.ts:56-58 | the index found is of an instance of the class with no instance before it; none is found exactly when no entry is an instance |
| `Injection.Search` | src/utils/injection.ts:55-61 | `search` returns an entry that is an instance of the class and comes before every other such entry; it fails, naming the class, exactly when no entry is an instance |
| `Injection.SearchScan` | src/utils/injection.ts:56-60 | the early-return scan loop computes the same answer as `Injection.Search` |
| `Injection.SearchAfterRegister` | src/utils/injection.ts:29-58 | after a registration adds w at the head, `search(t)` returns w if w is an instance of t, and otherwise what it returned before: the most recent match wins |
| `Injection.SearchStillResolves` | src/utils/injection.ts:29-58 | a registration never makes a resolvable class unresolvable |
| `Injection.SearchFindsNewInstance` | src/utils/injection.ts:25-30 | after an injectable class is registered, `search` for that class or any class it extends returns the new instance |
| `Injection.RegisterInjectableTwice` | src/utils/injection.ts:23-30 | registering the same injectable class twice adds two distinct instances of it; the class itself never enters the set |
| `Injection.InjectFieldsSucceeds` | src/utils/injection.ts:44-48 | the field loop succeeds exactly when every declared class resolves |
| `Injection.InjectFieldsKeys` | src/utils/injection.ts:44-47 | after a successful field loop the instance's fields are its own fields plus the declared ones |
| `Injection.InjectFieldsFailure` | src/utils/injection.ts:44-45 | a failing loop throws the error of the first declaration in insertion order whose class does not resolve |
| `Injection.InjectFieldsValues` | src/utils/injection.ts:45-47 | each declared field is present and holds what `search` of its declared class returns; every other field is present and keeps its value |
| `Injection.Create` | src/utils/injection.ts:39-53 | `create` returns a fresh object of the class, changes neither the registry nor any old object, sets declared fields to their `search` results and leaves constructor-set fields alone; it fails exactly when a declared class does not resolve |
| `Injection.CreateFailsAtFirst` | src/utils/injection.ts:44-45 | a failing `create` throws the error of the first declaration, in insertion order, whose class does not resolve |
| `Injection.CreateWithoutDeclarations` | src/utils/injection.ts:40-42 | a class without declarations is created as the constructor left it and creation cannot fail |
| `Injection.Inject` | src/utils/injection.ts:67-77 | `@Inject` records field to class in the consumer's map; a repeated field is overwritten and every field keeps its position; a new field is appended after all earlier ones; other fields and other consumers keep their declarations |
| `Injection.Injectable` | src/utils/injection.ts:79-81 | `@Injectable` adds the class to the injectable set and changes nothing else |
| `Configuration.Get` | src/config/Config.ts:6-8 | `get(k)` is the stored value for k, or undefined when none is stored |
| `Configuration.Set` | src/config/Config.ts:10-14 | `set` adds k to the stored keys and no other key |
| `Configuration.GetAfterSet` | src/config/Config.ts:10-12 | after `set(k, v)`, `get(k)` is v |
| `Configuration.SetKeepsOtherKeys` | src/config/Config.ts:11 | `set(k, v)` leaves every other key's value unchanged |
| `Configuration.SetOwnValue` | src/config/Config.ts:6-12 | for a key that has a stored value, `set(k, get(k))` leaves the store unchanged |
| `Configuration.SetChainSameKey` | src/config/Config.ts:10-14 | in a chain of `set` calls on one key the later value wins |
| `Envelope.ToJson` | src/utils/utils.ts:18-24 | `ok(d)` is an object with ok true and data d only; `error(e)` is an object with ok false and error e only; an `undefined` payload leaves only the ok flag, as serialization drops the key |
| `Envelope.FromToJson` | src/utils/utils.ts:4-10 | every envelope is read back from its JSON form as itself |
| `Envelope.ToFromJson` | src/utils/utils.ts:4-10 | the two shapes are the only envelopes, and the ok flag tells them apart |
| `Envelope.SubclassesAreErrors` | src/utils/utils.ts:1-2 | `BadRequestError` and `ServerError` pass an `instanceof Error` test; only error objects do |
| `RouteOptions.RouterMethod` | src/utils/server/utils.ts:14-23 | every verb maps to a router method, namely its own name in lower case |
| `RouteOptions.RouterMethodInjective` | src/utils/server.ts:134-143 | distinct verbs use distinct router methods |
| `RouteOptions.HttpMethodToRouteOptions` | src/utils/server/utils.ts:37-39 | the verb is always the given one; a string argument becomes the path; an options argument contributes its path, present or absent |
| `RouteOptions.PathOrOptionsAgree` | src/utils/server/utils.ts:37-39 | a path passed as a string and the same path inside options give equal route options |
| `RouteOptions.ShorthandOptions` | src/utils/server/utils.ts:52-54 | a shorthand passes its own verb; without an argument it passes no path; with one, exactly the conversion of that argument |
| `Mapping.Controller` | src/utils/server/mapping.ts:21-34 | `@Controller` records the given path or `'/'`, and changes no other class's entry |
| `Mapping.GetRouter` | src/utils/server/mapping.ts:36-45 | a cached controller gets its cached router with nothing changed; otherwise a new empty router is created and cached, and no two controllers share a router |
| `Mapping.GetRouterIdempotent` | src/utils/server.ts:12-21 | asking twice for one controller's router returns the same router and creates nothing more |
| `Mapping.EmptyRouting` | src/utils/server/mapping.ts:19 | the router cache starts empty and consistent |
| `Mapping.Route` | src/utils/server/mapping.ts:49-58 | `Route()` carries empty options and `Route(o)` carries o |
| `Mapping.RouteShorthand` | src/utils/server/mapping.ts:60-67 | `Route.<Verb>` produces options whose verb is that verb and whose path is the argument's, if any |
| `Mapping.Resolve` | src/utils/server/mapping.ts:74-77 | a missing verb defaults to GET and a missing path to `'/'`; given ones are kept |
| `Mapping.ApplyRoute` | src/utils/server/mapping.ts:54-56 | the initializer a route decorator installs appends one route, with the decorator's resolved verb and path and the instance and method it decorates, to that instance's router; every other controller keeps its router and its routes, and the router cache gains at most this controller |
| `Mapping.InitializeRoute` | src/utils/server/mapping.ts:69-82 | one route, with the resolved verb's router method and path, is appended to the controller's router; every other controller keeps its router and its routes, and the router cache gains at most this controller |
| `Mapping.RouteDefaults` | src/utils/server.ts:158-169 | a route declared with no options is registered through `get` at `'/'` |
| `Mapping.ShorthandRegistersVerb` | src/utils/server/mapping.ts:60-82 | a shorthand route is registered through its verb's lower-case router method, at its path or at `'/'` when it has none |
| `Mapping.Respond` | src/utils/server/mapping.ts:82-90 | a result gives 200 with `ok(result)`; every throw, a bad-request error included, gives 500 with the thrown value itself |
| `Mapping.ValidationFailureIs500` | src/utils/server/mapping.ts:83-89 | a request failing `check` in this variant is answered with 500 and the raw schema error |
| `TypeCheck.From` | src/utils/server/type-check.ts:54-61 | `from(req)` copies body, query and params and keeps req as the raw request |
| `TypeCheck.Parse` | src/utils/server/type-check.ts:50-52 | without a schema the value passes through; with one, the schema's result or throw is the outcome |
| `TypeCheck.Body` | src/utils/server/type-check.ts:34-36 | `body()` is the stored body; `body(schema)` is what the schema returns or throws on it |
| `TypeCheck.Query` | src/utils/server/type-check.ts:38-40 | `query()` is the stored query; `query(schema)` is what the schema returns or throws on it |
| `TypeCheck.Params` | src/utils/server/type-check.ts:42-44 | `params()` is the stored params; `params(schema)` is what the schema returns or throws on it |
| `TypeCheck.Continue` | src/utils/server/mapping.ts:83-88 | a handler that starts with `check` throws the check's error unchanged when it fails, and otherwise runs on the checked wrapper |
| `TypeCheck.FromThenRead` | src/utils/server/type-check.ts:34-44 | reading a slice without a schema returns the stored slice unchanged |
| `TypeCheck.Check` | src/utils/server/type-check.ts:25-31 | `check` succeeds exactly when every slice's schema accepts; the new wrapper holds the parsed slices and the same raw request; the error is the first failure in the order body, query, params, untranslated |
| `TypeCheck.CheckWithoutSchemas` | src/utils/server/type-check.ts:18-31 | `check({})` gives an identical wrapper |
| `LegacyServer.Respond` | src/utils/server.ts:171-187 | a result gives 200 with `ok(result)`; a `BadRequestError` gives 400 with its message; any other `Error` gives 500 with its message; a non-error gives 500 with the raw value |
| `LegacyServer.BadRequestCheckedFirst` | src/utils/server.ts:177-183 | a `BadRequestError` passes the generic `Error` test too, yet gets 400 because its test comes first |
| `LegacyServer.VariantsCompared` | src/utils/server/mapping.ts:87-89 | the two variants agree on the ok flag always, on the status except for a `BadRequestError`, and on the whole response except for error objects |
| `LegacyServer.Translate` | src/utils/server.ts:225-231 | a `ZodError` becomes a `BadRequestError` with the same message; anything else is rethrown unchanged |
| `LegacyServer.Check` | src/utils/server.ts:211-232 | `check` succeeds exactly when every slice's schema accepts; the error is the translated first failure in the order params, query, body |
| `LegacyServer.ChecksCompared` | src/utils/server.ts:214-217 | both versions of `check` accept the same requests with the same result; with exactly one failing slice they throw the same error up to translation |
| `LegacyServer.ValidationFailureIs400` | src/utils/server.ts:171-179 | a request whose first failing slice throws a `ZodError` gets 400 with the schema's message |

## Left out

- The `Server` classes (`src/utils/server.ts:55-119`, `src/utils/server/index.ts`): building the Express app, `boot`, `initControllers`, `listen` and console output are I/O. Their defaults are host `'localhost'` and port `3000`.
- Express routers: request dispatch, path matching and the precedence of colliding routes belong to the library. A router is an identity plus the list of routes registered on it.
- Schema semantics: a schema is any function from a value to a parsed value or a thrown error.
- Promises: a handler is collapsed to one settled outcome. A synchronous throw and a rejected promise are the same `Throws`.
- Decorator timing (`ctx.addInitializer`): only the resulting table updates are modelled. In the source, a field initializer runs when an instance is constructed, which is when `@Inject` fills the consumer's map.
- `Injection.Create`: it reads only the consumer class's own declarations. JavaScript would also find a superclass's map through the constructor's prototype chain.
- `Injection.Inject`: it takes the consumer class directly. The source takes `this.constructor`, which for a subclass instance is the subclass.
- `Injection.Inject`: each class has its own declaration map. In the source (`src/utils/injection.ts:72-74`) the test `!consumer[DEPENDENCY_FIELD]` also sees a superclass's map through the prototype chain, so a subclass whose superclass already has one writes its declarations into that shared map instead of creating its own.
- `Injection.Create`: `new Consumer()` (`src/utils/injection.ts:40`) always succeeds here; `Classes.initFields` is a total function. In the source a throwing constructor makes `create` throw, and so ends a `register` loop.
- `Injection.Create`: a failed `create` discards the half-filled object; in JavaScript it stays allocated but unreachable.
- Registered primitives: a registered value is an object or a class; strings, numbers and the like are not modelled.
- `Injection.InstanceOf`: a class value is an instance of no program class. In JavaScript a class is a function object, so `C instanceof Object` and `C instanceof Function` hold, and `search(Object)` or `search(Function)` (`src/utils/injection.ts:56-57`) could return a registered class; `Object` and `Function` as search targets are not modelled.
- `Registration.RegisterAllAdds`: it states that each declared field of a stored instance holds an instance of the declared class, not that it is the very entry `search` returned when that instance was created; `Injection.RegisterOne` states the latter for a single iteration.
- Numbers: `Json.Num` holds an integer. JavaScript numbers are doubles, and `NaN` and `Infinity` serialize as `null`; payloads are opaque to every contract here.
- The `debug` flag and its console logging in `create`.
- `TypedRequest.request()`: it returns the raw request, which is the `request` field of the model.
- `Configuration.Set`: it returns the updated store instead of the same object; identity and aliasing are not modelled, so chaining is composition. Values of different types per key are collapsed into one value type.
- `RouteOptions.HttpMethodToRouteOptions`: the options follow their declared type, which has no `method` key. At run time the spread `{ method, ...options }` would let such a key override the verb.
- The wire form of a raw `Error` object in an envelope (what JSON serialization of it produces) is left to the web library.
- `Envelope.ToJson`: only the payload key of the envelope is dropped when it is `undefined`; an `undefined` nested inside the payload (dropped from an object, `null` in an array) is passed through as it is.
- `src/container.ts` calls a `decorators()` method that `src/utils/injection.ts` does not define, so it has no behaviour to model. `src/index.ts`, `src/config/AccountService.ts`, `src/services/Account.ts` and `src/controllers/Account.ts` are wiring and stubs with database, hashing and console effects; none is part of this model.

=== FILE: configuration.dfy ===
/** `Config` of `src/config/Config.ts`: a keyed store with `get` and a
    chaining `set`. The object's identity is not modelled: `Set` returns the
    updated store, and chaining is composition. */
module Configuration {
  import opened Results

  datatype Config<K(==), V> = Config(data: map<K, V>)

  /** `config.get(k)`: the stored value, `undefined` when none is stored. */
  function Get<K(==), V>(c: Config<K, V>, k: K): (r: Option<V>)
    ensures r.Some? <==> k in c.data
    ensures r.Some? ==> r.value == c.data[k]
  {
    if k in c.data then Some(c.data[k]) else None
  }

  /** `config.set(k, v)`. */
  function Set<K(==), V>(c: Config<K, V>, k: K, v: V): (r: Config<K, V>)
    ensures r.data.Keys == c.data.Keys + {k}
  {
    Config(c.data[k := v])
  }

  /** After `set(k, v)`, `get(k)` is `v`. */
  lemma GetAfterSet<K, V>(c: Config<K, V>, k: K, v: V)
    ensures Get(Set(c, k, v), k) == Some(v)
  {
  }

  /** `set(k, v)` leaves every other key's value as it was. */
  lemma SetKeepsOtherKeys<K, V>(c: Config<K, V>, k: K, v: V, k': K)
    requires k' != k
    ensures Get(Set(c, k, v), k') == Get(c, k')
  {
  }

  /** Writing back the value just read changes nothing. */
  lemma SetOwnValue<K, V>(c: Config<K, V>, k: K)
    requires Get(c, k).Some?
    ensures Set(c, k, Get(c, k).value) == c
  {
  }

  /** In a chain, the later `set` of the same key wins. */
  lemma SetChainSameKey<K, V>(c: Config<K, V>, k: K, v1: V, v2: V)
    ensures Set(Set(c, k, v1), k, v2) == Set(c, k, v2)
  {
  }
}

=== FILE: envelope.dfy ===
/** The response envelope and the error classes of `src/utils/utils.ts`, plus
    the abstract outcome of a route handler that both dispatch variants map to
    an HTTP response. */
module Envelope {
  import opened Results
  import opened Values

  /** `ServerResponse<T, E>`: `{ ok: true, data }` or `{ ok: false, error }`. */
  datatype ServerResponse<+T, +E> = Ok(data: T) | Error(error: E)

  /** The JSON object an envelope is sent as. Serialization drops a key whose
      value is `undefined`, so `ok(undefined)` is sent as `{"ok": true}`. */
  function ToJson(r: ServerResponse<Json, Json>): (j: Json)
    ensures j.Obj? && "ok" in j.fields && j.fields["ok"] == Bool(r.Ok?)
    ensures r.Ok? && r.data != Undefined ==> j.fields.Keys == {"ok", "data"} && j.fields["data"] == r.data
    ensures r.Error? && r.error != Undefined ==> j.fields.Keys == {"ok", "error"} && j.fields["error"] == r.error
    ensures r == Ok(Undefined) || r == Error(Undefined) ==> j.fields.Keys == {"ok"}
  {
    match r
    case Ok(d) => Obj(Payload("data", d)["ok" := Bool(true)])
    case Error(e) => Obj(Payload("error", e)["ok" := Bool(false)])
  }

  /** The payload key of an envelope, absent when its value is `undefined`. */
  function Payload(key: string, v: Json): map<string, Json> {
    if v == Undefined then map[] else map[key := v]
  }

  /** Reads a JSON value back as an envelope; only the two shapes, with the
      `ok` flag agreeing with the payload key, are envelopes, and a missing
      payload key reads as `undefined`. */
  function FromJson(j: Json): (r: Option<ServerResponse<Json, Json>>)
  {
    if !j.Obj? || "ok" !in j.fields || !j.fields["ok"].Bool? then None
    else
      var key := if j.fields["ok"].b then "data" else "error";
      var payload := if key in j.fields then j.fields[key] else Undefined;
      if j.fields.Keys - {"ok"} <= {key} && (key in j.fields ==> payload != Undefined) then
        Some(if j.fields["ok"].b then Ok(payload) else Error(payload))
      else
        None
  }

  /** Every envelope is read back as itself. */
  lemma FromToJson(r: ServerResponse<Json, Json>)
    ensures FromJson(ToJson(r)) == Some(r)
  {
  }

  /** The two shapes are the only envelopes, and `ok` tells them apart. */
  lemma ToFromJson(j: Json)
    ensures FromJson(j).Some? <==> exists r :: ToJson(r) == j
    ensures FromJson(j).Some? ==> ToJson(FromJson(j).value) == j
    ensures FromJson(j).Some? ==> (FromJson(j).value.Ok? <==> j.fields["ok"] == Bool(true))
  {
    if FromJson(j).Some? {
      var r := FromJson(j).value;
      var key := if j.fields["ok"].b then "data" else "error";
      assert j.fields.Keys - {"ok"} <= {key};
      forall x | x in j.fields.Keys ensures x == "ok" || x == key {
        if x != "ok" { assert x in j.fields.Keys - {"ok"}; }
      }
      assert ToJson(r).fields.Keys == j.fields.Keys;
      assert ToJson(r).fields == j.fields;
    } else if exists r :: ToJson(r) == j {
      var r :| ToJson(r) == j;
      FromToJson(r);
    }
  }

  /** Error classes a thrown object can be an instance of: `Error` itself, the
      two subclasses `BadRequestError` and `ServerError`, and the schema
      library's `ZodError` (also an `Error` subclass). */
  datatype ErrorClass = BaseError | BadRequestError | ServerError | ZodError

  /** The subclass relation among error classes: each extends `Error`. */
  predicate Extends(c: ErrorClass, d: ErrorClass) {
    c == d || d == BaseError
  }

  /** A thrown value: an error object with its message, or any other value. */
  datatype Thrown = ErrorObject(cls: ErrorClass, message: string) | NonError(value: Json)

  /** `t instanceof c`. */
  predicate InstanceOf(t: Thrown, c: ErrorClass) {
    t.ErrorObject? && Extends(t.cls, c)
  }

  /** An `instanceof Error` test matches a `BadRequestError` and a
      `ServerError`; it never matches a non-error value. */
  lemma SubclassesAreErrors(t: Thrown)
    ensures InstanceOf(t, BadRequestError) ==> InstanceOf(t, BaseError)
    ensures InstanceOf(t, ServerError) ==> InstanceOf(t, BaseError)
    ensures InstanceOf(t, BaseError) <==> t.ErrorObject?
    ensures InstanceOf(t, BadRequestError) ==> !InstanceOf(t, ServerError) && !InstanceOf(t, ZodError)
  {
  }

  /** What a route handler does, once any returned promise has settled. */
  datatype Outcome = Returns(value: Json) | Throws(thrown: Thrown)

  /** What a failure envelope carries: an error's message, or the thrown value itself. */
  datatype Reported = Message(text: string) | Raw(thrown: Thrown)

  datatype Response = Response(status: int, body: ServerResponse<Json, Reported>)
}

=== FILE: injection.dfy ===
/** The dependency container of `src/utils/injection.ts`.

    Objects are identities (`ObjId`) in a heap, each with a class; classes are
    identities too, and a class can itself be handed to the container as a
    value. `instanceof` is a subclass relation fixed by the program's class
    declarations. The two module-level tables the decorators fill — the set
    of `@Injectable` classes and each consumer's field-to-type declarations —
    are `Annotations`. The container is an ordered list of registered values,
    most recent first, plus a membership set. */
module Injection {
  import opened Results
  import opened OrderedMaps

  type ClassId = nat
  type ObjId = nat
  type FieldName = string

  /** Something that can be registered: an object, or a class (a constructor). */
  datatype Value = Instance(id: ObjId) | Class(cls: ClassId)

  /** What the program's class declarations fix: `isa(c, d)` holds when class
      `c` is `d` or extends it, and `initFields(c)` are the fields that
      `new c()` sets on its own. */
  datatype Classes = Classes(isa: (ClassId, ClassId) -> bool, initFields: ClassId -> map<FieldName, Value>)

  /** The subclass relation is reflexive and transitive. */
  ghost predicate Hierarchy(cs: Classes) {
    && (forall c :: cs.isa(c, c))
    && (forall a, b, c :: cs.isa(a, b) && cs.isa(b, c) ==> cs.isa(a, c))
  }

  /** The `injectables` set and, per consumer class, its `DEPENDENCY_FIELD`
      map from field name to the class required there. */
  datatype Annotations = Annotations(injectables: set<ClassId>, declared: map<ClassId, OrderedMap<FieldName, ClassId>>)

  datatype Obj = Obj(cls: ClassId, fields: map<FieldName, Value>)

  /** Allocated objects; `next` is the identity the next `new` receives. */
  datatype Heap = Heap(objects: map<ObjId, Obj>, next: ObjId)

  /** `_dependences` (most recent first) and `_dependencySet`. */
  datatype Container = Container(dependences: seq<Value>, dependencySet: set<Value>)

  datatype State = State(container: Container, heap: Heap)

  /** `Can't find dependency "<name>"`. */
  datatype DiError = MissingDependency(cls: ClassId)

  datatype Created = Created(instance: Value, state: State)

  /** The state after a `register` call: the container as the loop left it,
      and the error that ended the loop early, if one did. */
  datatype Registered = Registered(state: State, error: Option<DiError>)

  // ---------------------------------------------------------------------------
  // Annotations

  /** The dependencies declared on `consumer`; none when it has no map. */
  function Declared(a: Annotations, consumer: ClassId): OrderedMap<FieldName, ClassId> {
    if consumer in a.declared then a.declared[consumer] else []
  }

  /** `@Injectable` on class `target`. */
  function Injectable(a: Annotations, target: ClassId): (r: Annotations)
    ensures target in r.injectables
    ensures forall c :: c != target ==> (c in r.injectables <==> c in a.injectables)
    ensures r.declared == a.declared
  {
    a.(injectables := a.injectables + {target})
  }

  /** `@Inject(dependency)` on field `field` of class `consumer`: creates the
      consumer's map if missing, then records the field's required class,
      replacing an earlier declaration of the same field in place. */
  function Inject(a: Annotations, consumer: ClassId, field: FieldName, dependency: ClassId): (r: Annotations)
    ensures Lookup(Declared(r, consumer), field) == Some(dependency)
    ensures forall f :: f != field ==> Lookup(Declared(r, consumer), f) == Lookup(Declared(a, consumer), f)
    ensures Keys(Declared(r, consumer)) == Keys(Declared(a, consumer)) + {field}
    // a re-declared field keeps its position, and so does every other field
    ensures field in Keys(Declared(a, consumer)) ==>
      && |Declared(r, consumer)| == |Declared(a, consumer)|
      && forall i :: 0 <= i < |Declared(a, consumer)| ==> Declared(r, consumer)[i].0 == Declared(a, consumer)[i].0
    // a new field is declared after every earlier one
    ensures field !in Keys(Declared(a, consumer)) ==>
      && |Declared(r, consumer)| == |Declared(a, consumer)| + 1
      && Declared(r, consumer)[..|Declared(a, consumer)|] == Declared(a, consumer)
      && Declared(r, consumer)[|Declared(a, consumer)|] == (field, dependency)
    ensures forall c :: c != consumer ==> Declared(r, c) == Declared(a, c)
    ensures r.injectables == a.injectables
  {
    var m := Set(Declared(a, consumer), field, dependency);
    var r := a.(declared := a.declared[consumer := m]);
    assert Declared(r, consumer) == m;
    r
  }

  // ---------------------------------------------------------------------------
  // State invariant

  function Elements(s: seq<Value>): (r: set<Value>)
    ensures forall v :: v in r <==> v in s
  {
    set v | v in s
  }

  predicate NoDuplicates(s: seq<Value>) {
    forall i, j | 0 <= i < j < |s| :: s[i] != s[j]
  }

  /** A value a program can hold: a class, or an object that was allocated. */
  predicate Known(h: Heap, v: Value) {
    v.Instance? ==> v.id in h.objects
  }

  /** The container's invariant: the set is exactly the list's elements, the
      list holds no value twice, and it refers only to allocated objects. */
  ghost predicate Valid(st: State) {
    && (forall id :: id in st.heap.objects ==> id < st.heap.next)
    && st.container.dependencySet == Elements(st.container.dependences)
    && NoDuplicates(st.container.dependences)
    && (forall v :: v in st.container.dependences ==> Known(st.heap, v))
  }

  /** `h'` allocates more objects and changes none of the old ones. */
  ghost predicate HeapGrows(h: Heap, h': Heap) {
    && h.next <= h'.next
    && (forall id :: id in h.objects ==> id in h'.objects && h'.objects[id] == h.objects[id])
  }

  lemma KnownGrows(h: Heap, h': Heap)
    requires HeapGrows(h, h')
    ensures forall v :: Known(h, v) ==> Known(h', v)
  {
  }

  /** A fresh container, `new Container()`, over an existing heap. */
  function NewContainer(h: Heap): (st: State)
    requires forall id :: id in h.objects ==> id < h.next
    ensures Valid(st) && st.container.dependences == []
  {
    State(Container([], {}), h)
  }

  // ---------------------------------------------------------------------------
  // search

  /** `v instanceof T`: only an object is an instance of a class. */
  predicate InstanceOf(cs: Classes, h: Heap, v: Value, t: ClassId) {
    v.Instance? && v.id in h.objects && cs.isa(h.objects[v.id].cls, t)
  }

  /** Index of the first element of `deps` that is an instance of `t`. */
  function FirstMatch(cs: Classes, h: Heap, deps: seq<Value>, t: ClassId): (r: Option<nat>)
    ensures r.Some? ==> r.value < |deps| && InstanceOf(cs, h, deps[r.value], t)
    ensures r.Some? ==> forall j :: 0 <= j < r.value ==> !InstanceOf(cs, h, deps[j], t)
    ensures r.None? <==> forall j :: 0 <= j < |deps| ==> !InstanceOf(cs, h, deps[j], t)
    decreases |deps|
  {
    if |deps| == 0 then None
    else if InstanceOf(cs, h, deps[0], t) then Some(0)
    else match FirstMatch(cs, h, deps[1..], t)
      case None => None
      case Some(i) => Some(i + 1)
  }

  /** `container.search(t)`: the first registered value — so the most recently
      registered one — that is an instance of `t`; it throws when none is. */
  function Search(cs: Classes, st: State, t: ClassId): (r: Result<Value, DiError>)
    ensures r.Success? ==>
      exists i :: && 0 <= i < |st.container.dependences| && st.container.dependences[i] == r.value
                  && InstanceOf(cs, st.heap, r.value, t)
                  && forall j :: 0 <= j < i ==> !InstanceOf(cs, st.heap, st.container.dependences[j], t)
    ensures r.Failure? <==> forall v :: v in st.container.dependences ==> !InstanceOf(cs, st.heap, v, t)
    ensures r.Failure? ==> r.error == MissingDependency(t)
  {
    var deps := st.container.dependences;
    match FirstMatch(cs, st.heap, deps, t)
    case Some(i) => Success(deps[i])
    case None => Failure(MissingDependency(t))
  }

  /** The `for ... of` scan that implements `search`. */
  method SearchScan(cs: Classes, st: State, t: ClassId) returns (r: Result<Value, DiError>)
    ensures r == Search(cs, st, t)
  {
    var deps := st.container.dependences;
    var i := 0;
    while i < |deps|
      invariant 0 <= i <= |deps|
      invariant forall j :: 0 <= j < i ==> !InstanceOf(cs, st.heap, deps[j], t)
    {
      if InstanceOf(cs, st.heap, deps[i], t) {
        return Success(deps[i]);
      }
      i := i + 1;
    }
    return Failure(MissingDependency(t));
  }

  // ---------------------------------------------------------------------------
  // create

  /** The loop of `create` over the consumer's declarations, in insertion
      order: each field receives `search` of its declared class; the first
      failing search throws. */
  function InjectFields(cs: Classes, st: State, fields: map<FieldName, Value>, decls: seq<(FieldName, ClassId)>)
    : Result<map<FieldName, Value>, DiError>
    decreases |decls|
  {
    if |decls| == 0 then Success(fields)
    else
      match Search(cs, st, decls[0].1)
      case Failure(e) => Failure(e)
      case Success(v) => InjectFields(cs, st, fields[decls[0].0 := v], decls[1..])
  }

  /** The field loop succeeds exactly when every declared class resolves. */
  lemma {:induction false} InjectFieldsSucceeds(cs: Classes, st: State, fields: map<FieldName, Value>, decls: seq<(FieldName, ClassId)>)
    ensures InjectFields(cs, st, fields, decls).Success? <==> forall i :: 0 <= i < |decls| ==> Search(cs, st, decls[i].1).Success?
    decreases |decls|
  {
    if |decls| > 0 && Search(cs, st, decls[0].1).Success? {
      AllResolveCons(cs, st, decls);
      InjectFieldsSucceeds(cs, st, fields[decls[0].0 := Search(cs, st, decls[0].1).value], decls[1..]);
    }
  }

  /** A successful field loop leaves the instance with its own fields plus
      the declared ones. */
  lemma {:induction false} InjectFieldsKeys(cs: Classes, st: State, fields: map<FieldName, Value>, decls: seq<(FieldName, ClassId)>)
    requires InjectFields(cs, st, fields, decls).Success?
    ensures InjectFields(cs, st, fields, decls).value.Keys == fields.Keys + Keys(decls)
    decreases |decls|
  {
    if |decls| > 0 {
      KeysOfTail(decls);
      InjectFieldsKeys(cs, st, fields[decls[0].0 := Search(cs, st, decls[0].1).value], decls[1..]);
    }
  }

  /** Every declaration resolves exactly when the first one does and every
      later one does. */
  lemma AllResolveCons(cs: Classes, st: State, decls: seq<(FieldName, ClassId)>)
    requires |decls| > 0
    ensures (forall i :: 0 <= i < |decls| ==> Search(cs, st, decls[i].1).Success?)
        <==> Search(cs, st, decls[0].1).Success? && forall i :: 0 <= i < |decls[1..]| ==> Search(cs, st, decls[1..][i].1).Success?
  {
    assert forall i :: 0 < i < |decls| ==> decls[i] == decls[1..][i - 1];
  }

  /** A failing `create` throws the error of the first declaration, in
      insertion order, whose class has no registered instance. */
  lemma {:induction false} InjectFieldsFailure(cs: Classes, st: State, fields: map<FieldName, Value>, decls: seq<(FieldName, ClassId)>)
    requires InjectFields(cs, st, fields, decls).Failure?
    ensures exists i :: && 0 <= i < |decls|
                        && Search(cs, st, decls[i].1) == Failure(InjectFields(cs, st, fields, decls).error)
                        && forall j :: 0 <= j < i ==> Search(cs, st, decls[j].1).Success?
    decreases |decls|
  {
    var (field, dep) := decls[0];
    if Search(cs, st, dep).Success? {
      var rest := decls[1..];
      var v := Search(cs, st, dep).value;
      InjectFieldsFailure(cs, st, fields[field := v], rest);
      var i :| && 0 <= i < |rest| && Search(cs, st, rest[i].1) == Failure(InjectFields(cs, st, fields[field := v], rest).error)
               && forall j :: 0 <= j < i ==> Search(cs, st, rest[j].1).Success?;
      assert decls[i + 1] == rest[i];
      forall j | 0 <= j < i + 1 ensures Search(cs, st, decls[j].1).Success? {
        if j > 0 { assert decls[j] == rest[j - 1]; }
      }
    }
  }

  /** On success, each declared field holds `search` of its declared class
      and every other field keeps its value. */
  lemma {:induction false} InjectFieldsValues(cs: Classes, st: State, fields: map<FieldName, Value>, decls: seq<(FieldName, ClassId)>)
    requires UniqueKeys(decls)
    requires InjectFields(cs, st, fields, decls).Success?
    ensures var m := InjectFields(cs, st, fields, decls).value;
      && (forall i :: 0 <= i < |decls| ==> decls[i].0 in m && Search(cs, st, decls[i].1) == Success(m[decls[i].0]))
      && (forall f :: f in fields && f !in Keys(decls) ==> f in m && m[f] == fields[f])
    decreases |decls|
  {
    if |decls| > 0 {
      var (field, dep) := decls[0];
      var v := Search(cs, st, dep).value;
      KeysOfTail(decls);
      var rest := decls[1..];
      var m := InjectFields(cs, st, fields, decls).value;
      assert m == InjectFields(cs, st, fields[field := v], rest).value;
      InjectFieldsValues(cs, st, fields[field := v], rest);
      forall i | 0 <= i < |decls|
        ensures decls[i].0 in m && Search(cs, st, decls[i].1) == Success(m[decls[i].0])
      {
        if i > 0 { assert decls[i] == rest[i - 1]; }
      }
      forall f | f in fields && f !in Keys(decls)
        ensures f in m && m[f] == fields[f]
      {
      }
    }
  }

  /** `container.create(C)`: a fresh instance of `C` whose declared fields
      hold `search` of their declared classes and whose other fields are as
      `new C()` left them. The searches see the container before the new
      object exists; the object is never registered, so allocating it first
      would not change them. */
  function Create(cs: Classes, a: Annotations, st: State, c: ClassId): (r: Result<Created, DiError>)
    requires Valid(st)
    ensures r.Success? <==> forall i :: 0 <= i < |Declared(a, c)| ==> Search(cs, st, Declared(a, c)[i].1).Success?
    ensures r.Failure? ==> exists i :: 0 <= i < |Declared(a, c)| && Search(cs, st, Declared(a, c)[i].1) == Failure(r.error)
    ensures r.Success? ==>
      var v := r.value.instance;
      var h' := r.value.state.heap;
      && v.Instance? && v.id !in st.heap.objects
      && h'.objects.Keys == st.heap.objects.Keys + {v.id}
      && h'.objects[v.id].cls == c
      && HeapGrows(st.heap, h')
      && r.value.state.container == st.container
      && Valid(r.value.state)
    ensures r.Success? ==>
      var obj := r.value.state.heap.objects[r.value.instance.id];
      var decls := Declared(a, c);
      && obj.fields.Keys == cs.initFields(c).Keys + Keys(decls)
      && (forall i :: 0 <= i < |decls| ==> obj.fields[decls[i].0] == Search(cs, st, decls[i].1).value)
      && (forall f :: f in cs.initFields(c) && f !in Keys(decls) ==> obj.fields[f] == cs.initFields(c)[f])
  {
    InjectFieldsSucceeds(cs, st, cs.initFields(c), Declared(a, c));
    match InjectFields(cs, st, cs.initFields(c), Declared(a, c))
    case Failure(e) =>
      InjectFieldsFailure(cs, st, cs.initFields(c), Declared(a, c));
      Failure(e)
    case Success(fields) =>
      InjectFieldsKeys(cs, st, cs.initFields(c), Declared(a, c));
      InjectFieldsValues(cs, st, cs.initFields(c), Declared(a, c));
      var id := st.heap.next;
      var h' := Heap(st.heap.objects[id := Obj(c, fields)], id + 1);
      Success(Created(Instance(id), State(st.container, h')))
  }

  /** A failing `create` throws the error of the first declaration, in
      insertion order, whose class has no registered instance. */
  lemma CreateFailsAtFirst(cs: Classes, a: Annotations, st: State, c: ClassId)
    requires Valid(st) && Create(cs, a, st, c).Failure?
    ensures exists i :: && 0 <= i < |Declared(a, c)|
                        && Search(cs, st, Declared(a, c)[i].1) == Failure(Create(cs, a, st, c).error)
                        && forall j :: 0 <= j < i ==> Search(cs, st, Declared(a, c)[j].1).Success?
  {
    InjectFieldsFailure(cs, st, cs.initFields(c), Declared(a, c));
  }

  // ---------------------------------------------------------------------------
  // register / remove

  predicate IsInjectableClass(a: Annotations, v: Value) {
    v.Class? && v.cls in a.injectables
  }

  /** Puts `v` at the head of the list and into the set. */
  function Push(st: State, v: Value): State {
    State(Container([v] + st.container.dependences, st.container.dependencySet + {v}), st.heap)
  }

  /** One iteration of the `register` loop. The membership test is on the
      argument, but for an `@Injectable` class the value stored is a newly
      created instance, so the class itself never enters the set. */
  function RegisterOne(cs: Classes, a: Annotations, st: State, v: Value): (r: Result<State, DiError>)
    requires Valid(st) && Known(st.heap, v)
    ensures r.Success? ==> Valid(r.value) && HeapGrows(st.heap, r.value.heap)
    ensures v in st.container.dependencySet ==> r == Success(st)
    ensures v !in st.container.dependencySet && r.Success? ==>
      var d := r.value.container.dependences;
      && |d| == |st.container.dependences| + 1
      && d[1..] == st.container.dependences
      && (if IsInjectableClass(a, v)
          then d[0].Instance? && d[0].id !in st.heap.objects && d[0].id in r.value.heap.objects && r.value.heap.objects[d[0].id].cls == v.cls
          else d[0] == v && r.value.heap == st.heap)
    ensures r.Failure? ==>
      && v !in st.container.dependencySet && IsInjectableClass(a, v)
      && Create(cs, a, st, v.cls) == Failure(r.error)
  {
    if v in st.container.dependencySet then Success(st)
    else if IsInjectableClass(a, v) then
      match Create(cs, a, st, v.cls)
      case Failure(e) => Failure(e)
      case Success(created) =>
        var st' := Push(created.state, created.instance);
        assert [created.instance] + st.container.dependences == st'.container.dependences;
        Success(st')
    else
      Success(Push(st, v))
  }

  /** For an injectable class, the entry stored is exactly the object
      `create` returned, in the heap `create` returned. */
  lemma RegisterOneCreates(cs: Classes, a: Annotations, st: State, v: Value)
    requires Valid(st) && Known(st.heap, v)
    requires v !in st.container.dependencySet && IsInjectableClass(a, v)
    requires RegisterOne(cs, a, st, v).Success?
    ensures var r := RegisterOne(cs, a, st, v).value;
            Create(cs, a, st, v.cls) == Success(Created(r.container.dependences[0], State(st.container, r.heap)))
  {
  }

  /** `o` is an object of class `c` as `create` leaves it, seen in heap `h`:
      its fields are the constructor's plus the declared ones, each declared
      field holds an instance of its declared class, and every other field is
      as the constructor set it. */
  ghost predicate Built(cs: Classes, a: Annotations, h: Heap, o: Obj, c: ClassId) {
    var decls := Declared(a, c);
    && o.cls == c
    && o.fields.Keys == cs.initFields(c).Keys + Keys(decls)
    && (forall i :: 0 <= i < |decls| ==> decls[i].0 in o.fields && InstanceOf(cs, h, o.fields[decls[i].0], decls[i].1))
    && (forall f :: f in cs.initFields(c) && f !in Keys(decls) ==> o.fields[f] == cs.initFields(c)[f])
  }

  /** A built object stays built as the heap grows. */
  lemma BuiltGrows(cs: Classes, a: Annotations, h: Heap, h': Heap, o: Obj, c: ClassId)
    requires HeapGrows(h, h') && Built(cs, a, h, o, c)
    ensures Built(cs, a, h', o, c)
  {
    var decls := Declared(a, c);
    forall i | 0 <= i < |decls| ensures InstanceOf(cs, h', o.fields[decls[i].0], decls[i].1) {
      assert InstanceOf(cs, h, o.fields[decls[i].0], decls[i].1);
    }
  }

  /** What `create` returns is built, in the heap it returns. */
  lemma CreateBuilds(cs: Classes, a: Annotations, st: State, c: ClassId)
    requires Valid(st) && Create(cs, a, st, c).Success?
    ensures var r := Create(cs, a, st, c).value;
            Built(cs, a, r.state.heap, r.state.heap.objects[r.instance.id], c)
  {
    var r := Create(cs, a, st, c).value;
    var h' := r.state.heap;
    var o := h'.objects[r.instance.id];
    var decls := Declared(a, c);
    forall i | 0 <= i < |decls| ensures decls[i].0 in o.fields && InstanceOf(cs, h', o.fields[decls[i].0], decls[i].1) {
      var t := decls[i].1;
      assert Search(cs, st, t).Success?;
      assert InstanceOf(cs, st.heap, Search(cs, st, t).value, t);
    }
  }

  /** Entry `w` is what registering argument `v` stores: a fresh object of
      `v`'s class, built by `create`, when `v` is an injectable class, and
      `v` itself otherwise. */
  ghost predicate StandsFor(cs: Classes, a: Annotations, h: Heap, h': Heap, w: Value, v: Value) {
    if IsInjectableClass(a, v)
    then w.Instance? && w.id !in h.objects && w.id in h'.objects && Built(cs, a, h', h'.objects[w.id], v.cls)
    else w == v
  }

  /** A stored entry keeps standing for its argument as the heap grows. */
  lemma StandsForGrows(cs: Classes, a: Annotations, h: Heap, h': Heap, h'': Heap, w: Value, v: Value)
    requires HeapGrows(h', h'') && StandsFor(cs, a, h, h', w, v)
    ensures StandsFor(cs, a, h, h'', w, v)
  {
    if IsInjectableClass(a, v) {
      BuiltGrows(cs, a, h', h'', h'.objects[w.id], v.cls);
    }
  }

  /** What one successful iteration does, in terms of `StandsFor`: an
      argument already present changes nothing; otherwise one entry standing
      for it is put at the head of the list and into the set. */
  ghost predicate OneStep(cs: Classes, a: Annotations, st: State, st': State, v: Value) {
    var s := st.container.dependencySet;
    var d' := st'.container.dependences;
    && HeapGrows(st.heap, st'.heap)
    && (v in s ==> st' == st)
    && (v !in s ==> && |d'| == |st.container.dependences| + 1
                    && d' == [d'[0]] + st.container.dependences
                    && StandsFor(cs, a, st.heap, st'.heap, d'[0], v)
                    && st'.container.dependencySet == s + {d'[0]})
  }

  lemma RegisterOneStep(cs: Classes, a: Annotations, st: State, v: Value)
    requires Valid(st) && Known(st.heap, v)
    requires RegisterOne(cs, a, st, v).Success?
    ensures OneStep(cs, a, st, RegisterOne(cs, a, st, v).value, v)
  {
    var st' := RegisterOne(cs, a, st, v).value;
    if v !in st.container.dependencySet {
      var d' := st'.container.dependences;
      if IsInjectableClass(a, v) {
        RegisterOneCreates(cs, a, st, v);
        CreateBuilds(cs, a, st, v.cls);
      }
      assert d' == [d'[0]] + d'[1..];
      assert forall x :: x in d' <==> x == d'[0] || x in d'[1..];
    }
  }

  /** `container.register(...values)`: registers the values in order; a throw
      from `create` ends the loop and keeps what was registered before it. */
  function RegisterAll(cs: Classes, a: Annotations, st: State, vs: seq<Value>): (r: Registered)
    requires Valid(st) && forall v :: v in vs ==> Known(st.heap, v)
    ensures Valid(r.state) && HeapGrows(st.heap, r.state.heap)
    ensures |st.container.dependences| <= |r.state.container.dependences|
    ensures r.state.container.dependences == r.state.container.dependences[..|r.state.container.dependences| - |st.container.dependences|] + st.container.dependences
    decreases |vs|
  {
    if |vs| == 0 then Registered(st, None)
    else
      match RegisterOne(cs, a, st, vs[0])
      case Failure(e) => Registered(st, Some(e))
      case Success(st') =>
        RegisterOneNext(cs, a, st, vs);
        var r := RegisterAll(cs, a, st', vs[1..]);
        HeadEntries(r.state.container.dependences, st'.container.dependences, st.container.dependences);
        r
  }

  /** What the rest of a `register` loop may assume after one successful
      iteration. */
  lemma RegisterOneNext(cs: Classes, a: Annotations, st: State, vs: seq<Value>)
    requires Valid(st) && forall v :: v in vs ==> Known(st.heap, v)
    requires |vs| > 0 && RegisterOne(cs, a, st, vs[0]).Success?
    ensures var st' := RegisterOne(cs, a, st, vs[0]).value;
      && Valid(st') && HeapGrows(st.heap, st'.heap)
      && (forall v :: v in vs[1..] ==> Known(st'.heap, v))
      && (st'.container.dependences == st.container.dependences
          || (|st'.container.dependences| == |st.container.dependences| + 1
              && st'.container.dependences == [st'.container.dependences[0]] + st.container.dependences))
  {
    var st' := RegisterOne(cs, a, st, vs[0]).value;
    RegisterOneStep(cs, a, st, vs[0]);
    assert forall v :: v in vs[1..] ==> v in vs;
    KnownGrows(st.heap, st'.heap);
  }

  /** Entries added at the head of a list that itself extends `d0` at the
      head extend `d0` at the head, and keep every element of the middle list. */
  lemma HeadEntries(d: seq<Value>, d': seq<Value>, d0: seq<Value>)
    requires |d'| <= |d| && d == d[..|d| - |d'|] + d'
    requires d' == d0 || (|d'| == |d0| + 1 && d' == [d'[0]] + d0)
    ensures |d0| <= |d| && d == d[..|d| - |d0|] + d0
    ensures forall x :: x in d' ==> x in d
  {
    if d' != d0 {
      assert d[..|d| - |d0|] == d[..|d| - |d'|] + [d'[0]];
    }
  }

  /** `vs.includes(x)` decides removal: the elements of `s` not listed in
      `vs`, in their original order. */
  function Without(s: seq<Value>, vs: seq<Value>): (r: seq<Value>)
    ensures forall x :: x in r <==> x in s && x !in vs
    ensures NoDuplicates(s) ==> NoDuplicates(r)
    ensures |r| <= |s|
  {
    if |s| == 0 then []
    else if s[0] in vs then Without(s[1..], vs)
    else
      var tail := Without(s[1..], vs);
      assert NoDuplicates(s) ==> s[0] !in s[1..];
      [s[0]] + tail
  }

  /** `container.remove(...values)`: filters the list, then rebuilds the set
      from it. */
  function Remove(st: State, vs: seq<Value>): (r: State)
    ensures r.container.dependences == Without(st.container.dependences, vs)
    ensures forall v :: v in r.container.dependencySet <==> v in st.container.dependences && v !in vs
    ensures r.heap == st.heap
    ensures Valid(st) ==> Valid(r)
  {
    var deps := Without(st.container.dependences, vs);
    State(Container(deps, Elements(deps)), st.heap)
  }

  /** Filtering distributes over concatenation: it keeps the relative order
      of whatever it keeps. */
  lemma {:induction false} WithoutKeepsOrder(s1: seq<Value>, s2: seq<Value>, vs: seq<Value>)
    ensures Without(s1 + s2, vs) == Without(s1, vs) + Without(s2, vs)
    decreases |s1|
  {
    if |s1| == 0 {
      assert s1 + s2 == s2;
    } else {
      assert (s1 + s2)[1..] == s1[1..] + s2;
      WithoutKeepsOrder(s1[1..], s2, vs);
    }
  }

  /** The operations that change a container. */
  datatype Op = Register(values: seq<Value>) | Unregister(values: seq<Value>)

  /** A program may hold, and so pass, only values it can reach: for a
      `register`, ones allocated in the heap at that point. `remove` accepts
      anything. */
  predicate Allowed(h: Heap, op: Op) {
    op.Register? ==> forall v :: v in op.values ==> Known(h, v)
  }

  /** One `register` or `remove` call. */
  function Apply(cs: Classes, a: Annotations, st: State, op: Op): (r: State)
    requires Valid(st) && Allowed(st.heap, op)
    ensures Valid(r) && HeapGrows(st.heap, r.heap)
  {
    match op
    case Register(vs) => RegisterAll(cs, a, st, vs).state
    case Unregister(vs) => Remove(st, vs)
  }

  /** Every call of `ops`, made in turn from `st`, is passed values the
      program can hold at that point; so a later call may name an object an
      earlier one created. */
  ghost predicate Runnable(cs: Classes, a: Annotations, st: State, ops: seq<Op>)
    requires Valid(st)
    decreases |ops|
  {
    |ops| > 0 ==> Allowed(st.heap, ops[0]) && Runnable(cs, a, Apply(cs, a, st, ops[0]), ops[1..])
  }

  /** Runs a sequence of `register` / `remove` calls; a `register` that throws
      leaves the container as its loop left it. */
  function Run(cs: Classes, a: Annotations, st: State, ops: seq<Op>): (r: State)
    requires Valid(st) && Runnable(cs, a, st, ops)
    ensures Valid(r) && HeapGrows(st.heap, r.heap)
    decreases |ops|
  {
    if |ops| == 0 then st
    else
      Run(cs, a, Apply(cs, a, st, ops[0]), ops[1..])
  }

  /** `register(C)` followed by `remove` of any value, the instance just
      created included, is runnable. */
  lemma RegisterThenRemoveRunnable(cs: Classes, a: Annotations, st: State, c: ClassId, w: Value)
    requires Valid(st)
    ensures Runnable(cs, a, st, [Register([Class(c)]), Unregister([w])])
  {
    var ops := [Register([Class(c)]), Unregister([w])];
    var st' := Apply(cs, a, st, ops[0]);
    assert ops[1..] == [Unregister([w])] && ops[1..][1..] == [];
    assert Runnable(cs, a, Apply(cs, a, st', ops[1]), []);
  }

  /** Calls whose values were all allocated before the first call are
      runnable. */
  lemma {:induction false} RunnableFromStart(cs: Classes, a: Annotations, st: State, ops: seq<Op>)
    requires Valid(st)
    requires forall op, v :: op in ops && op.Register? && v in op.values ==> Known(st.heap, v)
    ensures Runnable(cs, a, st, ops)
    decreases |ops|
  {
    if |ops| > 0 {
      var st' := Apply(cs, a, st, ops[0]);
      assert forall op :: op in ops[1..] ==> op in ops;
      KnownGrows(st.heap, st'.heap);
      RunnableFromStart(cs, a, st', ops[1..]);
    }
  }

  // ---------------------------------------------------------------------------
  // Properties over several calls

  /** Allocating more objects changes no `instanceof` answer about values the
      program already held, so it changes no `search` over them. */
  lemma {:induction false} FirstMatchStable(cs: Classes, h: Heap, h': Heap, deps: seq<Value>, t: ClassId)
    requires HeapGrows(h, h')
    requires forall v :: v in deps ==> Known(h, v)
    ensures FirstMatch(cs, h', deps, t) == FirstMatch(cs, h, deps, t)
    decreases |deps|
  {
    if |deps| > 0 {
      assert InstanceOf(cs, h', deps[0], t) == InstanceOf(cs, h, deps[0], t) by {
        assert Known(h, deps[0]);
      }
      assert forall v :: v in deps[1..] ==> v in deps;
      FirstMatchStable(cs, h, h', deps[1..], t);
    }
  }

  /** The most recently registered match wins: after a `register` that adds
      `w` at the head, `search(t)` finds `w` when it is an instance of `t` and
      otherwise finds what it found before. */
  lemma SearchAfterRegister(cs: Classes, a: Annotations, st: State, v: Value, t: ClassId)
    requires Valid(st) && Known(st.heap, v)
    requires v !in st.container.dependencySet
    requires RegisterOne(cs, a, st, v).Success?
    ensures var st' := RegisterOne(cs, a, st, v).value;
            var w := st'.container.dependences[0];
            Search(cs, st', t) == if InstanceOf(cs, st'.heap, w, t) then Success(w) else Search(cs, st, t)
  {
    RegisterOneStep(cs, a, st, v);
    SearchAfterPush(cs, st, RegisterOne(cs, a, st, v).value, t);
  }

  /** `search` after an entry is put at the head of the list in a grown heap. */
  lemma SearchAfterPush(cs: Classes, st: State, st': State, t: ClassId)
    requires Valid(st) && HeapGrows(st.heap, st'.heap)
    requires |st'.container.dependences| > 0
    requires st'.container.dependences == [st'.container.dependences[0]] + st.container.dependences
    ensures var w := st'.container.dependences[0];
            Search(cs, st', t) == if InstanceOf(cs, st'.heap, w, t) then Success(w) else Search(cs, st, t)
  {
    var deps := st.container.dependences;
    var w := st'.container.dependences[0];
    FirstMatchStable(cs, st.heap, st'.heap, deps, t);
    if !InstanceOf(cs, st'.heap, w, t) {
      assert ([w] + deps)[1..] == deps;
    }
  }

  /** A registration only ever adds a candidate, so a class that `search`
      resolved before still resolves after. */
  lemma SearchStillResolves(cs: Classes, a: Annotations, st: State, v: Value, t: ClassId)
    requires Valid(st) && Known(st.heap, v)
    requires RegisterOne(cs, a, st, v).Success?
    requires Search(cs, st, t).Success?
    ensures Search(cs, RegisterOne(cs, a, st, v).value, t).Success?
  {
    if v !in st.container.dependencySet {
      SearchAfterRegister(cs, a, st, v, t);
    }
  }

  /** Registering the same `@Injectable` class twice creates and registers
      two distinct instances: the membership test looks at the class, which
      is never itself stored. */
  lemma RegisterInjectableTwice(cs: Classes, a: Annotations, st: State, c: ClassId)
    requires Valid(st) && c in a.injectables
    requires Class(c) !in st.container.dependencySet
    requires RegisterOne(cs, a, st, Class(c)).Success?
    ensures var st1 := RegisterOne(cs, a, st, Class(c)).value;
            && Class(c) !in st1.container.dependencySet
            && RegisterOne(cs, a, st1, Class(c)).Success?
    ensures var st2 := RegisterOne(cs, a, RegisterOne(cs, a, st, Class(c)).value, Class(c)).value;
            var d := st2.container.dependences;
            && |d| == |st.container.dependences| + 2
            && d[2..] == st.container.dependences
            && d[0].Instance? && d[0].id in st2.heap.objects && st2.heap.objects[d[0].id].cls == c
            && d[1].Instance? && d[1].id in st2.heap.objects && st2.heap.objects[d[1].id].cls == c
            && d[0] != d[1]
  {
    var st1 := RegisterOne(cs, a, st, Class(c)).value;
    var decls := Declared(a, c);
    forall i | 0 <= i < |decls| ensures Search(cs, st1, decls[i].1).Success? {
      SearchStillResolves(cs, a, st, Class(c), decls[i].1);
    }
    var st2 := RegisterOne(cs, a, st1, Class(c)).value;
    assert st2.container.dependences[1..] == st1.container.dependences;
  }

  /** Registering an injectable class makes its new instance what `search`
      returns for that class and for every class it extends. */
  lemma SearchFindsNewInstance(cs: Classes, a: Annotations, st: State, c: ClassId, t: ClassId)
    requires Hierarchy(cs) && Valid(st) && c in a.injectables
    requires Class(c) !in st.container.dependencySet
    requires RegisterOne(cs, a, st, Class(c)).Success?
    requires t == c || cs.isa(c, t)
    ensures var st' := RegisterOne(cs, a, st, Class(c)).value;
            Search(cs, st', t) == Success(st'.container.dependences[0])
  {
    SearchAfterRegister(cs, a, st, Class(c), t);
  }

  /** A class with no declared dependencies is constructed as `new C()` left
      it, and construction cannot fail. */
  lemma CreateWithoutDeclarations(cs: Classes, a: Annotations, st: State, c: ClassId)
    requires Valid(st) && c !in a.declared
    ensures Create(cs, a, st, c).Success?
    ensures var r := Create(cs, a, st, c).value;
            r.state.heap.objects[r.instance.id] == Obj(c, cs.initFields(c))
  {
  }
}
module Registration {
  import opened Results
  import opened Injection

  /** The arguments a `register` loop admits, in argument order: an argument
      already in the set `s` is skipped; a value that is not an injectable
      class enters the set, so a later repetition of it is skipped too; an
      injectable class never enters the set, so each repetition is admitted. */
  function Admitted(a: Annotations, s: set<Value>, vs: seq<Value>): seq<Value>
    decreases |vs|
  {
    if |vs| == 0 then []
    else if vs[0] in s then Admitted(a, s, vs[1..])
    else if IsInjectableClass(a, vs[0]) then [vs[0]] + Admitted(a, s, vs[1..])
    else [vs[0]] + Admitted(a, s + {vs[0]}, vs[1..])
  }

  /** The entries `p`, most recent first, are what registering `args` in
      order stores. */
  ghost predicate Stores(cs: Classes, a: Annotations, h: Heap, h': Heap, p: seq<Value>, args: seq<Value>) {
    && |p| == |args|
    && forall i :: 0 <= i < |p| ==> StandsFor(cs, a, h, h', p[i], args[|args| - 1 - i])
  }

  /** A value outside the arguments does not change which of them are admitted. */
  lemma {:induction false} AdmittedIgnores(a: Annotations, s: set<Value>, x: Value, vs: seq<Value>)
    requires x !in vs
    ensures Admitted(a, s + {x}, vs) == Admitted(a, s, vs)
    decreases |vs|
  {
    if |vs| > 0 {
      assert vs[0] != x;
      assert forall v :: v in vs[1..] ==> v in vs;
      AdmittedIgnores(a, s, x, vs[1..]);
      if vs[0] !in s && !IsInjectableClass(a, vs[0]) {
        assert s + {x} + {vs[0]} == s + {vs[0]} + {x};
        AdmittedIgnores(a, s + {vs[0]}, x, vs[1..]);
      }
    }
  }

  /** `r` is what `register(...vs)` leaves: the new entries at the head of the
      list are, in reverse argument order, what the admitted arguments before
      `vs[k]` store, and `vs[k]` is the injectable class whose `create`
      threw, or `k` is the end when none threw. */
  ghost predicate RegisteredUpTo(cs: Classes, a: Annotations, st: State, vs: seq<Value>, r: Registered, k: int) {
    var d := r.state.container.dependences;
    && 0 <= k <= |vs|
    && |st.container.dependences| <= |d|
    && d == d[..|d| - |st.container.dependences|] + st.container.dependences
    && (r.error.None? <==> k == |vs|)
    && Stores(cs, a, st.heap, r.state.heap, d[..|d| - |st.container.dependences|],
              Admitted(a, st.container.dependencySet, vs[..k]))
    && (k < |vs| ==> && IsInjectableClass(a, vs[k])
                     && vs[k] !in r.state.container.dependencySet
                     && Valid(r.state)
                     && Create(cs, a, r.state, vs[k].cls) == Failure(r.error.value))
  }

  /** What `register(...vs)` adds, and where it stops when a `create` throws. */
  lemma {:induction false} RegisterAllAdds(cs: Classes, a: Annotations, st: State, vs: seq<Value>)
    requires Valid(st) && forall v :: v in vs ==> Known(st.heap, v)
    ensures exists k :: RegisteredUpTo(cs, a, st, vs, RegisterAll(cs, a, st, vs), k)
    decreases |vs|
  {
    if |vs| == 0 || RegisterOne(cs, a, st, vs[0]).Failure? {
      RegisteredNone(cs, a, st, vs);
    } else {
      var st' := RegisterOne(cs, a, st, vs[0]).value;
      RegisterAllUnfold(cs, a, st, vs);
      RegisterAllAdds(cs, a, st', vs[1..]);
      var k' :| RegisteredUpTo(cs, a, st', vs[1..], RegisterAll(cs, a, st', vs[1..]), k');
      RegisteredStep(cs, a, st, st', vs, RegisterAll(cs, a, st', vs[1..]), k');
    }
  }

  /** A `register` that stops before its first argument, or has none, adds
      nothing. */
  lemma RegisteredNone(cs: Classes, a: Annotations, st: State, vs: seq<Value>)
    requires Valid(st) && forall v :: v in vs ==> Known(st.heap, v)
    requires |vs| == 0 || RegisterOne(cs, a, st, vs[0]).Failure?
    ensures RegisteredUpTo(cs, a, st, vs, RegisterAll(cs, a, st, vs), 0)
  {
    var d := RegisterAll(cs, a, st, vs).state.container.dependences;
    assert vs[..0] == [];
    assert d[..|d| - |st.container.dependences|] == [];
  }

  /** The first iteration of a `register` loop that does not throw, and the
      loop over the remaining arguments that follows it. */
  lemma RegisterAllUnfold(cs: Classes, a: Annotations, st: State, vs: seq<Value>)
    requires Valid(st) && forall v :: v in vs ==> Known(st.heap, v)
    requires |vs| > 0 && RegisterOne(cs, a, st, vs[0]).Success?
    ensures var st' := RegisterOne(cs, a, st, vs[0]).value;
      && Valid(st') && OneStep(cs, a, st, st', vs[0])
      && (forall v :: v in vs[1..] ==> Known(st'.heap, v))
      && RegisterAll(cs, a, st, vs) == RegisterAll(cs, a, st', vs[1..])
      && HeapGrows(st'.heap, RegisterAll(cs, a, st', vs[1..]).state.heap)
  {
    var st' := RegisterOne(cs, a, st, vs[0]).value;
    RegisterOneStep(cs, a, st, vs[0]);
    assert forall v :: v in vs[1..] ==> v in vs;
    KnownGrows(st.heap, st'.heap);
  }

  /** An argument that is not an injectable class and not yet in the set is
      admitted. */
  lemma {:induction false} AdmittedHas(a: Annotations, s: set<Value>, vs: seq<Value>, v: Value)
    requires v in vs && v !in s && !IsInjectableClass(a, v)
    ensures v in Admitted(a, s, vs)
    decreases |vs|
  {
    if vs[0] != v {
      assert v in vs[1..];
      AdmittedHas(a, s, vs[1..], v);
      AdmittedHas(a, s + {vs[0]}, vs[1..], v);
    }
  }

  /** A `register` that does not throw leaves every argument that is not an
      injectable class in the container. */
  lemma RegisterAllKeepsArguments(cs: Classes, a: Annotations, st: State, vs: seq<Value>)
    requires Valid(st) && forall v :: v in vs ==> Known(st.heap, v)
    ensures var r := RegisterAll(cs, a, st, vs);
            r.error.None? ==> forall v :: v in vs && !IsInjectableClass(a, v) ==> v in r.state.container.dependencySet
  {
    var r := RegisterAll(cs, a, st, vs);
    RegisterAllAdds(cs, a, st, vs);
    var k :| RegisteredUpTo(cs, a, st, vs, r, k);
    KeepsArguments(cs, a, st, vs, r, k);
  }

  /** The membership half of `RegisterAllKeepsArguments`, for any outcome
      described by `RegisteredUpTo`. */
  lemma KeepsArguments(cs: Classes, a: Annotations, st: State, vs: seq<Value>, r: Registered, k: int)
    requires Valid(st) && Valid(r.state)
    requires RegisteredUpTo(cs, a, st, vs, r, k)
    ensures r.error.None? ==> forall v :: v in vs && !IsInjectableClass(a, v) ==> v in r.state.container.dependencySet
  {
    if r.error.None? {
      assert vs[..k] == vs;
      var d := r.state.container.dependences;
      var n := |st.container.dependences|;
      forall v | v in vs && !IsInjectableClass(a, v) ensures v in d {
        if v in st.container.dependencySet {
          assert d[|d| - n..] == st.container.dependences;
          assert v in d[|d| - n..];
        } else {
          AdmittedHas(a, st.container.dependencySet, vs, v);
          StoresHas(cs, a, st.heap, r.state.heap, d[..|d| - n], Admitted(a, st.container.dependencySet, vs), v);
        }
      }
    }
  }

  /** Every admitted argument that is not an injectable class is itself one
      of the stored entries. */
  lemma StoresHas(cs: Classes, a: Annotations, h: Heap, h': Heap, p: seq<Value>, args: seq<Value>, v: Value)
    requires Stores(cs, a, h, h', p, args)
    requires v in args && !IsInjectableClass(a, v)
    ensures v in p
  {
    var j :| 0 <= j < |args| && args[j] == v;
    assert StandsFor(cs, a, h, h', p[|args| - 1 - j], args[|args| - 1 - (|args| - 1 - j)]);
  }

  /** One iteration of the loop followed by the rest of it: from what the
      rest leaves relative to `st'` to what the whole leaves relative to `st`. */
  lemma RegisteredStep(cs: Classes, a: Annotations, st: State, st': State, vs: seq<Value>, r: Registered, k': int)
    requires |vs| > 0 && forall v :: v in vs ==> Known(st.heap, v)
    requires OneStep(cs, a, st, st', vs[0])
    requires HeapGrows(st'.heap, r.state.heap)
    requires RegisteredUpTo(cs, a, st', vs[1..], r, k')
    ensures RegisteredUpTo(cs, a, st, vs, r, k' + 1)
  {
    var k := k' + 1;
    var rest := vs[1..][..k'];
    assert vs[..k] == [vs[0]] + rest;
    assert forall v :: v in rest ==> v in vs;
    assert k' < |vs[1..]| ==> vs[1..][k'] == vs[k];
    AddedStep(cs, a, st, st', r.state, vs[0], rest);
  }

  /** `StandsFor` only asks that a stored object be new relative to `h`, so
      it survives replacing `h` by an older heap. */
  lemma StandsForOlder(cs: Classes, a: Annotations, h0: Heap, h: Heap, h': Heap, w: Value, v: Value)
    requires forall id :: id in h0.objects ==> id in h.objects
    requires StandsFor(cs, a, h, h', w, v)
    ensures StandsFor(cs, a, h0, h', w, v)
  {
  }

  /** The entries the later iterations store, followed by what this
      iteration stored, are what registering `[v] + rest` stores. */
  lemma AddedStep(cs: Classes, a: Annotations, st: State, st': State, r: State, v: Value, rest: seq<Value>)
    requires forall x :: x in rest ==> Known(st.heap, x)
    requires OneStep(cs, a, st, st', v)
    requires HeapGrows(st'.heap, r.heap)
    requires |st'.container.dependences| <= |r.container.dependences|
    requires r.container.dependences == r.container.dependences[..|r.container.dependences| - |st'.container.dependences|] + st'.container.dependences
    requires Stores(cs, a, st'.heap, r.heap, r.container.dependences[..|r.container.dependences| - |st'.container.dependences|],
                    Admitted(a, st'.container.dependencySet, rest))
    ensures |st.container.dependences| <= |r.container.dependences|
    ensures r.container.dependences == r.container.dependences[..|r.container.dependences| - |st.container.dependences|] + st.container.dependences
    ensures Stores(cs, a, st.heap, r.heap, r.container.dependences[..|r.container.dependences| - |st.container.dependences|],
                   Admitted(a, st.container.dependencySet, [v] + rest))
  {
    var s := st.container.dependencySet;
    var d := r.container.dependences;
    var d' := st'.container.dependences;
    if v in s {
      assert st' == st;
      assert ([v] + rest)[0] == v && ([v] + rest)[1..] == rest;
    } else {
      var w := d'[0];
      PrependSuffix(d, d', st.container.dependences);
      AdmittedHead(cs, a, st, st', v, rest);
      StoresCons(cs, a, st.heap, st'.heap, r.heap, d[..|d| - |d'|], Admitted(a, st'.container.dependencySet, rest), w, v);
    }
  }

  /** A list that ends with `[w] + d0` ends with `d0`, and what precedes
      `d0` is what preceded `[w] + d0`, followed by `w`. */
  lemma PrependSuffix(d: seq<Value>, d': seq<Value>, d0: seq<Value>)
    requires |d'| == |d0| + 1 && d' == [d'[0]] + d0
    requires |d'| <= |d| && d == d[..|d| - |d'|] + d'
    ensures |d0| <= |d| && d == d[..|d| - |d0|] + d0
    ensures d[..|d| - |d0|] == d[..|d| - |d'|] + [d'[0]]
  {
    assert d == (d[..|d| - |d'|] + [d'[0]]) + d0;
  }

  /** Registering `[v] + rest` when `v` is not yet in the set admits `v`
      first, then whatever the rest admits from the set one iteration left. */
  lemma AdmittedHead(cs: Classes, a: Annotations, st: State, st': State, v: Value, rest: seq<Value>)
    requires forall x :: x in rest ==> Known(st.heap, x)
    requires OneStep(cs, a, st, st', v)
    requires v !in st.container.dependencySet
    ensures Admitted(a, st.container.dependencySet, [v] + rest) == [v] + Admitted(a, st'.container.dependencySet, rest)
  {
    var s := st.container.dependencySet;
    var w := st'.container.dependences[0];
    assert ([v] + rest)[0] == v && ([v] + rest)[1..] == rest;
    if IsInjectableClass(a, v) {
      assert w !in rest;
      AdmittedIgnores(a, s, w, rest);
    }
  }

  /** Entries for `args`, followed by the entry `w` for `v` stored one heap
      earlier, are the entries for `[v] + args`. */
  lemma StoresCons(cs: Classes, a: Annotations, h: Heap, h': Heap, h'': Heap, p': seq<Value>, args': seq<Value>, w: Value, v: Value)
    requires HeapGrows(h, h') && HeapGrows(h', h'')
    requires StandsFor(cs, a, h, h', w, v)
    requires Stores(cs, a, h', h'', p', args')
    ensures Stores(cs, a, h, h'', p' + [w], [v] + args')
  {
    var p := p' + [w];
    var args := [v] + args';
    forall i | 0 <= i < |p| ensures StandsFor(cs, a, h, h'', p[i], args[|args| - 1 - i]) {
      if i < |p'| {
        assert p[i] == p'[i] && args[|args| - 1 - i] == args'[|args'| - 1 - i];
        StandsForOlder(cs, a, h, h', h'', p'[i], args'[|args'| - 1 - i]);
      } else {
        assert p[i] == w && args[|args| - 1 - i] == v;
      }
    }
  }
}

=== FILE: legacy_server.dfy ===
/** The older single-file server of `src/utils/server.ts`. Its controller
    table, router cache and route registration are the same as in `Mapping`;
    what differs is how the installed handler maps a throw to a status, and a
    `check` that validates in a different order and translates schema errors
    into `BadRequestError`. */
module LegacyServer {
  import opened Results
  import opened Values
  import opened Envelope
  import opened TypeCheck
  import Mapping

  /** The response the installed handler sends: 200 with `ok(result)`; for a
      throw, the `BadRequestError` test comes first and gives 400 with the
      message, any other `Error` gives 500 with the message, and any other
      value gives 500 with the value itself. */
  function Respond(o: Outcome): (r: Response)
    ensures r.status == 200 <==> o.Returns?
    ensures r.status == 400 <==> o.Throws? && InstanceOf(o.thrown, BadRequestError)
    ensures r.status == 500 <==> o.Throws? && !InstanceOf(o.thrown, BadRequestError)
    ensures o.Returns? ==> r.body == Ok(o.value)
    ensures o.Throws? && InstanceOf(o.thrown, BaseError) ==> r.body == Error(Message(o.thrown.message))
    ensures o.Throws? && !InstanceOf(o.thrown, BaseError) ==> r.body == Error(Raw(o.thrown))
  {
    match o
    case Returns(v) => Response(200, Ok(v))
    case Throws(t) =>
      if InstanceOf(t, BadRequestError) then Response(400, Error(Message(t.message)))
      else if InstanceOf(t, BaseError) then Response(500, Error(Message(t.message)))
      else Response(500, Error(Raw(t)))
  }

  /** A `BadRequestError` also passes the generic `instanceof Error` test;
      only the order of the tests makes it a 400. */
  lemma BadRequestCheckedFirst(message: string)
    ensures InstanceOf(ErrorObject(BadRequestError, message), BaseError)
    ensures Respond(Throws(ErrorObject(BadRequestError, message))) == Response(400, Error(Message(message)))
  {
  }

  /** The two variants answer alike except for thrown `Error` objects: they
      agree on every status but a `BadRequestError`'s, always agree on the
      `ok` flag, and send the same envelope for a result or a non-error throw. */
  lemma VariantsCompared(o: Outcome)
    ensures Respond(o).body.Ok? == Mapping.Respond(o).body.Ok?
    ensures !(o.Throws? && InstanceOf(o.thrown, BadRequestError)) ==> Respond(o).status == Mapping.Respond(o).status
    ensures !(o.Throws? && o.thrown.ErrorObject?) ==> Respond(o) == Mapping.Respond(o)
  {
  }

  /** The `catch` of `check`: a `ZodError` becomes a `BadRequestError` with
      the same message; anything else is rethrown as it is. */
  function Translate(t: Thrown): (r: Thrown)
    ensures InstanceOf(t, ZodError) ==> r == ErrorObject(BadRequestError, t.message)
    ensures !InstanceOf(t, ZodError) ==> r == t
  {
    if InstanceOf(t, ZodError) then ErrorObject(BadRequestError, t.message) else t
  }

  /** `request.check(options)`: params, then query, then body are parsed; the
      first failure in that order is thrown, translated. */
  function Check(tr: TypedRequest, s: CheckSchemas): (r: Result<TypedRequest, Thrown>)
    ensures r.Success? <==> Params(tr, s.params).Success? && Query(tr, s.query).Success? && Body(tr, s.body).Success?
    ensures r.Success? ==>
      && r.value.body == Body(tr, s.body).value
      && r.value.query == Query(tr, s.query).value
      && r.value.params == Params(tr, s.params).value
      && r.value.request == tr.request
    ensures r.Failure? ==>
      var first := FirstFailure([Params(tr, s.params), Query(tr, s.query), Body(tr, s.body)]);
      first.Some? && r.error == Translate(first.value)
  {
    var rs := [Params(tr, s.params), Query(tr, s.query), Body(tr, s.body)];
    assert rs[1..] == [rs[1], rs[2]] && rs[1..][1..] == [rs[2]] && rs[1..][1..][1..] == [];
    match rs[0]
    case Failure(e) => Failure(Translate(e))
    case Success(params) =>
      match rs[1]
      case Failure(e) => Failure(Translate(e))
      case Success(query) =>
        match rs[2]
        case Failure(e) => Failure(Translate(e))
        case Success(body) => Success(TypedRequest(body, query, params, tr.request))
  }

  /** The number of slices whose schema throws. */
  function Failing(tr: TypedRequest, s: CheckSchemas): nat {
    (if Params(tr, s.params).Failure? then 1 else 0)
    + (if Query(tr, s.query).Failure? then 1 else 0)
    + (if Body(tr, s.body).Failure? then 1 else 0)
  }

  /** Both versions of `check` accept the same requests and build the same
      wrapper; when exactly one slice fails they throw the same error, up to
      the translation of a `ZodError`. When several fail, they may report
      different slices, as their orders differ. */
  lemma ChecksCompared(tr: TypedRequest, s: CheckSchemas)
    ensures Check(tr, s).Success? <==> TypeCheck.Check(tr, s).Success?
    ensures Check(tr, s).Success? ==> Check(tr, s) == TypeCheck.Check(tr, s)
    ensures Failing(tr, s) == 1 ==> Check(tr, s).Failure? && Check(tr, s).error == Translate(TypeCheck.Check(tr, s).error)
  {
    var rs := [Body(tr, s.body), Query(tr, s.query), Params(tr, s.params)];
    assert rs[1..] == [rs[1], rs[2]] && rs[1..][1..] == [rs[2]] && rs[1..][1..][1..] == [];
    var ls := [Params(tr, s.params), Query(tr, s.query), Body(tr, s.body)];
    assert ls[1..] == [ls[1], ls[2]] && ls[1..][1..] == [ls[2]] && ls[1..][1..][1..] == [];
  }

  /** A request whose first failing slice fails with a `ZodError` is answered
      with 400 and the schema's message. */
  lemma ValidationFailureIs400(req: Request, s: CheckSchemas, rest: TypedRequest -> Outcome)
    requires Check(From(req), s).Failure?
    ensures var tr := From(req);
            var first := FirstFailure([Params(tr, s.params), Query(tr, s.query), Body(tr, s.body)]).value;
            InstanceOf(first, ZodError) ==>
              Respond(Continue(Check(tr, s), rest)) == Response(400, Error(Message(first.message)))
  {
  }
}

=== FILE: mapping.dfy ===
/** The decorator-to-router adapter of `src/utils/server/mapping.ts`: the
    controller path table, the per-controller router cache, route
    registration with its defaults, the verb shorthands, and the mapping of a
    handler's outcome to a response. Routers are opaque identities; a
    router's state is the list of routes registered on it, in order. */
module Mapping {
  import opened Results
  import opened Values
  import opened Envelope
  import opened RouteOptions
  import opened TypeCheck

  type ControllerClass = nat
  /** A controller instance, the `this` a method decorator's initializer sees. */
  type ControllerKey = nat
  type RouterId = nat
  /** A decorated controller method. */
  type HandlerId = nat

  // ---------------------------------------------------------------------------
  // @Controller

  datatype ControllerMappingOptions = ControllerMappingOptions(path: Option<string>)

  datatype ControllerData = ControllerData(path: string)

  /** `@Controller(options)` on class `cls`: records the class's mount path in
      `controllersData`, `'/'` when the options (or the options themselves)
      leave it out. */
  function Controller(data: map<ControllerClass, ControllerData>, cls: ControllerClass, options: Option<ControllerMappingOptions>)
    : (r: map<ControllerClass, ControllerData>)
    ensures cls in r
    ensures options.Some? && options.value.path.Some? ==> r[cls].path == options.value.path.value
    ensures options.None? || options.value.path.None? ==> r[cls].path == "/"
    ensures forall c :: c != cls ==> (c in r <==> c in data) && (c in data ==> r[c] == data[c])
  {
    var opts := if options.Some? then options.value else ControllerMappingOptions(None);
    var path := if opts.path.Some? then opts.path.value else "/";
    data[cls := ControllerData(path)]
  }

  // ---------------------------------------------------------------------------
  // getRouter

  /** A route registered on a router: the router method used, the path, and
      the controller and method the installed handler calls. */
  datatype RouteEntry = RouteEntry(routerMethod: string, path: string, controller: ControllerKey, handler: HandlerId)

  /** `routers` (controller to router), each router's registered routes, and
      the identity the next `Router()` receives. */
  datatype Routing = Routing(routers: map<ControllerKey, RouterId>, stacks: map<RouterId, seq<RouteEntry>>, nextRouter: RouterId)

  /** Every cached router exists, no two controllers share one, and every
      router was created before `nextRouter`. */
  ghost predicate ValidRouting(t: Routing) {
    && (forall c :: c in t.routers ==> t.routers[c] in t.stacks)
    && (forall c1, c2 :: c1 in t.routers && c2 in t.routers && c1 != c2 ==> t.routers[c1] != t.routers[c2])
    && (forall rid :: rid in t.stacks ==> rid < t.nextRouter)
  }

  /** No routers and no routes. */
  function EmptyRouting(): (t: Routing)
    ensures ValidRouting(t) && t.routers == map[]
  {
    Routing(map[], map[], 0)
  }

  datatype Got = Got(routing: Routing, router: RouterId)

  /** `getRouter(controller)`: the cached router, or a new empty one that is
      cached from then on. */
  function GetRouter(t: Routing, c: ControllerKey): (g: Got)
    requires ValidRouting(t)
    ensures ValidRouting(g.routing)
    ensures c in g.routing.routers && g.routing.routers[c] == g.router
    ensures c in t.routers ==> g == Got(t, t.routers[c])
    ensures c !in t.routers ==>
      && g.router !in t.stacks
      && g.routing.stacks == t.stacks[g.router := []]
      && g.routing.routers == t.routers[c := g.router]
  {
    if c in t.routers then Got(t, t.routers[c])
    else
      var rid := t.nextRouter;
      Got(Routing(t.routers[c := rid], t.stacks[rid := []], rid + 1), rid)
  }

  /** Asking again for the same controller's router gives the same router and
      creates nothing. */
  lemma GetRouterIdempotent(t: Routing, c: ControllerKey)
    requires ValidRouting(t)
    ensures var g := GetRouter(t, c);
            GetRouter(g.routing, c) == g
  {
  }

  // ---------------------------------------------------------------------------
  // @Route and the verb shorthands

  /** What `Route(options)` returns: a method decorator that will register
      the method with these options. */
  datatype RouteDecorator = RouteDecorator(options: RouteMappingOptions)

  /** `Route(options = {})`. */
  function Route(options: Option<RouteMappingOptions>): (d: RouteDecorator)
    ensures options.None? ==> d.options.verb.None? && d.options.path.None?
    ensures options.Some? ==> d.options == options.value
  {
    RouteDecorator(if options.Some? then options.value else RouteMappingOptions(None, None))
  }

  /** `Route.Get`, `Route.Post`, ... `Route.Trace`: each is
      `createMethodMappingDecorator(Route, verb)`, which forwards to `Route`. */
  function RouteShorthand(m: HttpMethod, arg: Option<OptionsOrPath>): (d: RouteDecorator)
    ensures d.options.verb == Some(m)
    ensures arg.None? ==> d.options.path.None?
    ensures arg.Some? && arg.value.PathArg? ==> d.options.path == Some(arg.value.path)
    ensures arg.Some? && arg.value.OptionsArg? ==> d.options.path == arg.value.options.path
  {
    Route(Some(ShorthandOptions(m, arg)))
  }

  /** The verb and path a route is registered with: `GET` and `'/'` unless
      the options say otherwise. */
  function Resolve(o: RouteMappingOptions): (r: (HttpMethod, string))
    ensures o.verb.Some? ==> r.0 == o.verb.value
    ensures o.verb.None? ==> r.0 == GET
    ensures o.path.Some? ==> r.1 == o.path.value
    ensures o.path.None? ==> r.1 == "/"
  {
    (if o.verb.Some? then o.verb.value else GET, if o.path.Some? then o.path.value else "/")
  }

  /** The routes registered on `c`'s router so far. */
  function RoutesOf(t: Routing, c: ControllerKey): seq<RouteEntry> {
    if c in t.routers && t.routers[c] in t.stacks then t.stacks[t.routers[c]] else []
  }

  /** `initializeRoute(controller, handler, options)`: fetches or creates the
      controller's router and appends one route to it; no other router
      changes. */
  function InitializeRoute(t: Routing, c: ControllerKey, h: HandlerId, o: RouteMappingOptions): (r: Routing)
    requires ValidRouting(t)
    ensures ValidRouting(r)
    ensures RoutesOf(r, c) == RoutesOf(t, c) + [RouteEntry(RouterMethod(Resolve(o).0), Resolve(o).1, c, h)]
    ensures forall c' :: c' != c ==> RoutesOf(r, c') == RoutesOf(t, c')
    ensures c in t.routers ==> r.routers == t.routers
    ensures c in r.routers
    ensures forall c' :: c' != c ==> (c' in r.routers <==> c' in t.routers) && (c' in t.routers ==> r.routers[c'] == t.routers[c'])
  {
    var (m, path) := Resolve(o);
    var g := GetRouter(t, c);
    var rt := g.routing;
    rt.(stacks := rt.stacks[g.router := rt.stacks[g.router] + [RouteEntry(RouterMethod(m), path, c, h)]])
  }

  /** Running the initializer a decorator installed on method `h` of `c`. */
  function ApplyRoute(t: Routing, d: RouteDecorator, c: ControllerKey, h: HandlerId): (r: Routing)
    requires ValidRouting(t)
    ensures ValidRouting(r)
    ensures RoutesOf(r, c) == RoutesOf(t, c) + [RouteEntry(RouterMethod(Resolve(d.options).0), Resolve(d.options).1, c, h)]
    ensures forall c' :: c' != c ==> RoutesOf(r, c') == RoutesOf(t, c')
    ensures c in t.routers ==> r.routers == t.routers
    ensures c in r.routers
    ensures forall c' :: c' != c ==> (c' in r.routers <==> c' in t.routers) && (c' in t.routers ==> r.routers[c'] == t.routers[c'])
  {
    InitializeRoute(t, c, h, d.options)
  }

  /** A route declared with no options is a `GET` route at `'/'`. */
  lemma RouteDefaults(t: Routing, c: ControllerKey, h: HandlerId)
    requires ValidRouting(t)
    ensures var rs := RoutesOf(ApplyRoute(t, Route(None), c, h), c);
            rs[|rs| - 1] == RouteEntry("get", "/", c, h)
  {
  }

  /** A shorthand registers its own verb through that verb's router method,
      at the path it was given, or at `'/'` when it was given none. */
  lemma ShorthandRegistersVerb(t: Routing, m: HttpMethod, arg: Option<OptionsOrPath>, c: ControllerKey, h: HandlerId)
    requires ValidRouting(t)
    ensures var rs := RoutesOf(ApplyRoute(t, RouteShorthand(m, arg), c, h), c);
            && rs[|rs| - 1].routerMethod == ToLower(Name(m))
            && (arg.None? ==> rs[|rs| - 1].path == "/")
            && (arg.Some? && arg.value.PathArg? ==> rs[|rs| - 1].path == arg.value.path)
  {
  }

  // ---------------------------------------------------------------------------
  // The installed request handler

  /** The response the installed handler sends: 200 with `ok(result)` when
      the method returns, 500 with `error(thrown)` for anything it throws —
      a `BadRequestError` included. */
  function Respond(o: Outcome): (r: Response)
    ensures r.status == 200 <==> o.Returns?
    ensures r.status == 200 || r.status == 500
    ensures o.Returns? ==> r.body == Ok(o.value)
    ensures o.Throws? ==> r.body == Error(Raw(o.thrown))
  {
    match o
    case Returns(v) => Response(200, Ok(v))
    case Throws(t) => Response(500, Error(Raw(t)))
  }

  /** In this variant a request that fails validation is answered with 500
      and the schema's raw error, not with 400. */
  lemma ValidationFailureIs500(req: Request, s: CheckSchemas, rest: TypedRequest -> Outcome)
    requires Check(From(req), s).Failure?
    ensures Respond(Continue(Check(From(req), s), rest)) == Response(500, Error(Raw(Check(From(req), s).error)))
  {
  }
}

=== FILE: ordered_maps.dfy ===
/** An insertion-ordered map with unique keys, the behaviour of a JavaScript
    `Map`: `set` on a present key replaces its value in place, `set` on a new
    key appends it, and iteration follows insertion order. */
module OrderedMaps {
  import opened Results

  predicate UniqueKeys<K(==), V>(s: seq<(K, V)>) {
    forall i, j | 0 <= i < j < |s| :: s[i].0 != s[j].0
  }

  type OrderedMap<K(==), V> = s: seq<(K, V)> | UniqueKeys(s) witness []

  function Keys<K, V>(m: seq<(K, V)>): (ks: set<K>)
    ensures forall i :: 0 <= i < |m| ==> m[i].0 in ks
    ensures forall k :: k in ks ==> exists i :: 0 <= i < |m| && m[i].0 == k
  {
    set i | 0 <= i < |m| :: m[i].0
  }

  /** Position of key `k`, if present. */
  function IndexOf<K(==), V>(m: OrderedMap<K, V>, k: K): (r: Option<nat>)
    ensures r.Some? ==> r.value < |m| && m[r.value].0 == k
    ensures r.None? <==> k !in Keys(m)
    decreases |m|
  {
    if |m| == 0 then None
    else if m[0].0 == k then Some(0)
    else match IndexOf(m[1..], k)
      case None => None
      case Some(i) => Some(i + 1)
  }

  /** `map.get(k)`: the value stored under `k`, or `undefined`. */
  function Lookup<K(==), V>(m: OrderedMap<K, V>, k: K): (r: Option<V>)
    ensures r.None? <==> k !in Keys(m)
    ensures forall i :: 0 <= i < |m| && m[i].0 == k ==> r == Some(m[i].1)
  {
    match IndexOf(m, k)
    case None => None
    case Some(i) => Some(m[i].1)
  }

  /** Dropping the first entry drops exactly its key. */
  lemma KeysOfTail<K, V>(m: seq<(K, V)>)
    requires |m| > 0
    ensures UniqueKeys(m) ==> UniqueKeys(m[1..]) && m[0].0 !in Keys(m[1..])
    ensures forall i :: 0 <= i < |m| - 1 ==> m[1..][i] == m[i + 1]
    ensures Keys(m) == Keys(m[1..]) + {m[0].0}
  {
    var rest := m[1..];
    forall f | f in Keys(m) ensures f in Keys(rest) + {m[0].0} {
      var i :| 0 <= i < |m| && m[i].0 == f;
      if i > 0 { assert rest[i - 1].0 == f; }
    }
    forall f | f in Keys(rest) ensures f in Keys(m) && (UniqueKeys(m) ==> f != m[0].0) {
      var i :| 0 <= i < |rest| && rest[i].0 == f;
      assert m[i + 1].0 == f;
    }
  }

  /** `map.set(k, v)`. */
  function Set<K(==,!new), V>(m: OrderedMap<K, V>, k: K, v: V): (r: OrderedMap<K, V>)
    ensures Lookup(r, k) == Some(v)
    ensures forall k' :: k' != k ==> Lookup(r, k') == Lookup(m, k')
    ensures Keys(r) == Keys(m) + {k}
    // an existing key keeps its position, and so does every other entry
    ensures k in Keys(m) ==> |r| == |m| && forall i :: 0 <= i < |m| ==> r[i].0 == m[i].0
    ensures k in Keys(m) ==> forall i :: 0 <= i < |m| && m[i].0 != k ==> r[i] == m[i]
    // a new key goes after every existing entry
    ensures k !in Keys(m) ==> |r| == |m| + 1 && r[..|m|] == m && r[|m|] == (k, v)
  {
    match IndexOf(m, k)
    case Some(i) =>
      var r := m[i := (k, v)];
      SameKeysAfterReplace(m, r, i);
      OthersKeptAfterSet(m, r, k);
      r
    case None =>
      var r := m + [(k, v)];
      KeysAfterAppend(m, k, v);
      OthersKeptAfterSet(m, r, k);
      r
  }

  lemma SameKeysAfterReplace<K, V>(m: OrderedMap<K, V>, r: OrderedMap<K, V>, i: nat)
    requires i < |m| && |r| == |m|
    requires forall j :: 0 <= j < |m| ==> r[j].0 == m[j].0
    ensures Keys(r) == Keys(m)
  {
    forall k' | k' in Keys(r) ensures k' in Keys(m) {
      var j :| 0 <= j < |r| && r[j].0 == k';
      assert m[j].0 == k';
    }
  }

  lemma KeysAfterAppend<K, V>(m: OrderedMap<K, V>, k: K, v: V)
    requires k !in Keys(m)
    ensures UniqueKeys(m + [(k, v)])
    ensures Keys(m + [(k, v)]) == Keys(m) + {k}
  {
    var r := m + [(k, v)];
    assert r[|m|] == (k, v);
    forall k' | k' in Keys(r) ensures k' in Keys(m) + {k} {
      var i :| 0 <= i < |r| && r[i].0 == k';
      if i < |m| { assert m[i].0 == k'; }
    }
    forall k' | k' in Keys(m) ensures k' in Keys(r) {
      var i :| 0 <= i < |m| && m[i].0 == k';
      assert r[i].0 == k';
    }
  }

  /** Whatever else `r` holds, the entries of `m` under keys other than `k`
      are found in `r` at the same position. */
  lemma OthersKeptAfterSet<K(!new), V>(m: OrderedMap<K, V>, r: OrderedMap<K, V>, k: K)
    requires |m| <= |r|
    requires forall j :: 0 <= j < |m| && m[j].0 != k ==> r[j] == m[j]
    requires Keys(r) == Keys(m) + {k}
    ensures forall k' :: k' != k ==> Lookup(r, k') == Lookup(m, k')
  {
    forall k' | k' != k ensures Lookup(r, k') == Lookup(m, k') {
      if k' in Keys(m) {
        var j :| 0 <= j < |m| && m[j].0 == k';
        assert r[j] == m[j];
      }
    }
  }
}

=== FILE: results.dfy ===
/** Failure-carrying wrappers shared by the rest of the model: `Option` stands
    for a value that may be `undefined`, `Result` for a computation that either
    returns or throws. */
module Results {

  datatype Option<+T> = None | Some(value: T)

  datatype Result<+T, +E> = Success(value: T) | Failure(error: E) {

    predicate IsFailure() {
      Failure?
    }

    function PropagateFailure<U>(): Result<U, E>
      requires Failure?
    {
      Failure(error)
    }

    function Extract(): T
      requires Success?
    {
      value
    }
  }
}

=== FILE: route_options.dfy ===
/** Route options of `src/utils/server/utils.ts`: the HTTP verbs, the router
    method each is registered with, and the conversion behind the verb
    shorthands (`Route.Get(...)` and the like). */
module RouteOptions {
  import opened Results

  datatype HttpMethod = GET | POST | PUT | PATCH | DELETE | HEAD | OPTIONS | TRACE

  /** The verb as the `HttpMethod` string literal type spells it. */
  function Name(m: HttpMethod): string {
    match m
    case GET => "GET"
    case POST => "POST"
    case PUT => "PUT"
    case PATCH => "PATCH"
    case DELETE => "DELETE"
    case HEAD => "HEAD"
    case OPTIONS => "OPTIONS"
    case TRACE => "TRACE"
  }

  function LowerChar(c: char): char {
    if 'A' <= c <= 'Z' then (c as int + 32) as char else c
  }

  /** ASCII lower-casing. */
  function ToLower(s: string): (r: string)
    ensures |r| == |s|
    ensures forall i :: 0 <= i < |s| ==> r[i] == LowerChar(s[i])
  {
    if |s| == 0 then [] else [LowerChar(s[0])] + ToLower(s[1..])
  }

  /** `routerMethods[m]`: the name of the router method that registers a
      route for verb `m` — the verb's own name in lower case. */
  function RouterMethod(m: HttpMethod): (r: string)
    ensures r == ToLower(Name(m))
  {
    match m
    case GET => "get"
    case POST => "post"
    case PUT => "put"
    case PATCH => "patch"
    case DELETE => "delete"
    case HEAD => "head"
    case OPTIONS => "options"
    case TRACE => "trace"
  }

  /** Distinct verbs are registered through distinct router methods. */
  lemma RouterMethodInjective(m1: HttpMethod, m2: HttpMethod)
    ensures RouterMethod(m1) == RouterMethod(m2) ==> m1 == m2
  {
  }

  /** `RouteMappingOptions`: both parts optional. */
  datatype RouteMappingOptions = RouteMappingOptions(verb: Option<HttpMethod>, path: Option<string>)

  /** `HttpMethodMappingOptions`: route options without the verb. */
  datatype HttpMethodMappingOptions = HttpMethodMappingOptions(path: Option<string>)

  /** The argument of a verb shorthand: a bare path, or options. */
  datatype OptionsOrPath = PathArg(path: string) | OptionsArg(options: HttpMethodMappingOptions)

  /** `httpMethodToRouteOptions(m, optionsOrPath)`: the verb is always `m`; a
      string becomes the path, and options contribute their path, present or
      not. */
  function HttpMethodToRouteOptions(m: HttpMethod, arg: OptionsOrPath): (r: RouteMappingOptions)
    ensures r.verb == Some(m)
    ensures arg.PathArg? ==> r.path == Some(arg.path)
    ensures arg.OptionsArg? ==> r.path == arg.options.path
  {
    match arg
    case PathArg(p) => RouteMappingOptions(Some(m), Some(p))
    case OptionsArg(o) => RouteMappingOptions(Some(m), o.path)
  }

  /** The options a shorthand for verb `m` hands to the base decorator; a
      call with no argument stands for the empty options `{}`. */
  function ShorthandOptions(m: HttpMethod, arg: Option<OptionsOrPath>): (r: RouteMappingOptions)
    ensures r.verb == Some(m)
    ensures arg.None? ==> r.path.None?
    ensures arg.Some? ==> r == HttpMethodToRouteOptions(m, arg.value)
  {
    HttpMethodToRouteOptions(m, if arg.Some? then arg.value else OptionsArg(HttpMethodMappingOptions(None)))
  }

  /** Passing a path as a string or wrapped in options gives the same route. */
  lemma PathOrOptionsAgree(m: HttpMethod, p: string)
    ensures HttpMethodToRouteOptions(m, PathArg(p)) == HttpMethodToRouteOptions(m, OptionsArg(HttpMethodMappingOptions(Some(p))))
  {
  }
}

=== FILE: type_check.dfy ===
/** `TypedRequest` of `src/utils/server/type-check.ts`: a snapshot of a
    request's body, query and path parameters plus the raw request, with
    optional schema validation of each slice.

    A schema is any function from a value to a parsed value or a thrown
    error; the schema library's own rules are not modelled. */
module TypeCheck {
  import opened Results
  import opened Values
  import opened Envelope

  /** The raw request: an identity and the three slices the wrapper reads. */
  datatype Request = Request(id: nat, body: Json, query: Json, params: Json)

  datatype TypedRequest = TypedRequest(body: Json, query: Json, params: Json, request: Request)

  /** `schema.parse`: the parsed value, or what it throws. */
  type Schema = Json -> Result<Json, Thrown>

  /** `TypedRequestCheckSchemas`: a schema per slice, each optional. */
  datatype CheckSchemas = CheckSchemas(params: Option<Schema>, query: Option<Schema>, body: Option<Schema>)

  /** `TypedRequest.from(req)`. */
  function From(req: Request): (r: TypedRequest)
    ensures r.request == req
    ensures r.body == req.body && r.query == req.query && r.params == req.params
  {
    TypedRequest(req.body, req.query, req.params, req)
  }

  /** `TypedRequest.parse(value, schema)`: the value itself without a schema,
      otherwise whatever the schema returns or throws. */
  function Parse(value: Json, schema: Option<Schema>): (r: Result<Json, Thrown>)
    ensures schema.None? ==> r == Success(value)
    ensures schema.Some? ==> r == schema.value(value)
  {
    match schema
    case None => Success(value)
    case Some(s) => s(value)
  }

  /** `request.body(schema?)`. */
  function Body(tr: TypedRequest, schema: Option<Schema>): (r: Result<Json, Thrown>)
    ensures schema.None? ==> r == Success(tr.body)
    ensures schema.Some? ==> r == schema.value(tr.body)
  {
    Parse(tr.body, schema)
  }

  /** `request.query(schema?)`. */
  function Query(tr: TypedRequest, schema: Option<Schema>): (r: Result<Json, Thrown>)
    ensures schema.None? ==> r == Success(tr.query)
    ensures schema.Some? ==> r == schema.value(tr.query)
  {
    Parse(tr.query, schema)
  }

  /** `request.params(schema?)`. */
  function Params(tr: TypedRequest, schema: Option<Schema>): (r: Result<Json, Thrown>)
    ensures schema.None? ==> r == Success(tr.params)
    ensures schema.Some? ==> r == schema.value(tr.params)
  {
    Parse(tr.params, schema)
  }

  /** The first failure in a list of parse results, in list order. */
  function FirstFailure(rs: seq<Result<Json, Thrown>>): (r: Option<Thrown>)
    ensures r.None? <==> forall i :: 0 <= i < |rs| ==> rs[i].Success?
    ensures r.Some? ==> exists i :: 0 <= i < |rs| && rs[i] == Failure(r.value) && forall j :: 0 <= j < i ==> rs[j].Success?
  {
    if |rs| == 0 then None
    else if rs[0].Failure? then Some(rs[0].error)
    else
      var r := FirstFailure(rs[1..]);
      assert forall i :: 0 <= i < |rs| - 1 ==> rs[1..][i] == rs[i + 1];
      r
  }

  /** `request.check(schemas)`: the arguments of the new wrapper are evaluated
      body, then query, then params, so the first of these slices whose
      schema throws decides the error, which propagates untranslated. The
      original wrapper is a value and stays as it was. */
  function Check(tr: TypedRequest, s: CheckSchemas): (r: Result<TypedRequest, Thrown>)
    ensures r.Success? <==> Body(tr, s.body).Success? && Query(tr, s.query).Success? && Params(tr, s.params).Success?
    ensures r.Success? ==>
      && r.value.body == Body(tr, s.body).value
      && r.value.query == Query(tr, s.query).value
      && r.value.params == Params(tr, s.params).value
      && r.value.request == tr.request
    ensures r.Failure? ==>
      Some(r.error) == FirstFailure([Body(tr, s.body), Query(tr, s.query), Params(tr, s.params)])
  {
    var rs := [Body(tr, s.body), Query(tr, s.query), Params(tr, s.params)];
    assert rs[1..] == [rs[1], rs[2]] && rs[1..][1..] == [rs[2]] && rs[1..][1..][1..] == [];
    var body :- rs[0];
    var query :- rs[1];
    var params :- rs[2];
    Success(TypedRequest(body, query, params, tr.request))
  }

  /** A controller method that begins with `request.check(...)`: a failed
      check escapes from the method as thrown, otherwise the method continues
      with the checked wrapper. */
  function Continue(checked: Result<TypedRequest, Thrown>, rest: TypedRequest -> Outcome): (o: Outcome)
    ensures checked.Failure? ==> o == Throws(checked.error)
    ensures checked.Success? ==> o == rest(checked.value)
  {
    match checked
    case Failure(t) => Throws(t)
    case Success(tr) => rest(tr)
  }

  /** The slices of a wrapper made by `from` are read back unchanged when no
      schema is given. */
  lemma FromThenRead(req: Request)
    ensures Body(From(req), None) == Success(req.body)
    ensures Query(From(req), None) == Success(req.query)
    ensures Params(From(req), None) == Success(req.params)
  {
  }

  /** `check({})` yields an identical wrapper around the same raw request. */
  lemma CheckWithoutSchemas(tr: TypedRequest)
    ensures Check(tr, CheckSchemas(None, None, None)) == Success(tr)
  {
  }
}

=== FILE: values.dfy ===
/** The JSON-like values that flow through a request: request slices, schema
    outputs, handler results and non-`Error` thrown values. `Undefined` is
    JavaScript's `undefined`, which JSON has no form for. */
module Values {

  datatype Json =
    | Undefined
    | Null
    | Bool(b: bool)
    | Num(n: int)
    | Str(s: string)
    | Arr(items: seq<Json>)
    | Obj(fields: map<string, Json>)
}
